=== FILE: README.md ===
# Human-agent GUI control layer, in Dafny

This project models the control layer of the pygame front-end
`run_gui_advanced_fixed.py`. The front-end draws a multi-agent survival
simulation and lets an operator set the next action of a "human" agent. The
model covers five parts:

- **Human-action wizard.** It is entered with `h` or the *Human Action*
  button. It has four text steps (`op`, `collect`, `share`, `target`), each
  confirmed with ENTER. A blank entry is replaced by its default (`noop`,
  `not_applicable`, `not_applicable`, `-1`), and each confirmed value is
  written onto the target agent. The last step issues one
  `update_current_skill` call. ESC cancels, BACKSPACE deletes and printable
  keys type. Typed text arrives as key presses: a letter that is also a
  shortcut (`h`, `p`, `i`) arrives with that shortcut's key and still
  types. The model assumes `?` arrives as the help key too; it types
  either way.
- **Event routing.** Each frame handles its events in arrival order:
  - a window close stops the loop;
  - key presses go to the wizard while it is active and to the normal-mode
    keys otherwise;
  - left clicks are hit-tested against the button registry in either mode.
- **Button registry.** Nine action buttons sit on a three-column grid and
  four control buttons sit in a row. The model proves that the rectangles
  are pairwise disjoint and lie right of the game area.
- **Tick gating.** A tick does nothing while the simulation is paused or
  the wizard is open. Otherwise the external pipeline runs once, the step
  counter grows by one, and the loop stops when the pipeline reports done
  or the limit is reached.
- **`--human_agents` parsing.** The comma-separated pieces that are all
  digits after stripping become agent ids, in order.

Modules:

- `Options` (`options.dfy`) defines `Option`.
- `Text` (`text.dfy`) models the Python string built-ins the layer relies on:
  `strip`, `isspace`, `isprintable`, `isdigit`, `int(...)` and `split`.
- `Layout` (`layout.dfy`) holds the button registry and the hit test.
- `Gui` (`gui.dfy`) holds the state record, the wizard, the event handlers,
  the tick and the main loop.
- `Cli` (`cli.dfy`) parses the `--human_agents` value.
- `Session` (`session.dfy`) proves properties of whole event sequences:
  - a complete wizard session;
  - cancelling part-way through;
  - clicks during the wizard;
  - toggles;
  - the step limit across the main loop.

The state is one immutable `World` with three parts:

- the GUI fields, including the button registry;
- the agent records, as far as this layer reads and writes them;
- the log of skill updates issued so far, which stands for calls of the
  agent's `update_current_skill`.

Every handler is a pure function from `World` to `World`. `Valid(w)` is the
invariant every reachable state keeps, and every handler preserves it:

- the wizard is active exactly when it has a step;
- an active wizard has a target agent;
- the text buffer is empty outside the wizard and printable inside it.

The external per-tick pipeline (action processing, environment step, state
updates, thinking) is a `Simulation` parameter. Its `evolve` function gives
each agent's next record and its `done` function gives the environment's
done flag.

Where the code goes beyond a plain reading of its documented behaviour, the
model follows the code:

- ESC outside the wizard also stops the main loop, besides a window close
  and the end of the simulation.
- ESC in the wizard writes no field itself. Fields confirmed at earlier
  steps keep their new values (`Session.CancelKeepsConfirmed`).
- A frame in which the loop is stopped still runs its tick, because
  `running` is only read at the head of the loop.
- Left clicks are hit-tested while the wizard is active. So *Pause* still
  toggles the pause, and *Human Action* restarts the wizard at the op step.

## Model

| member | source | states |
|---|---|---|
| Gui.Init | run_gui_advanced_fixed.py:48-59 | The constructed state keeps the invariant. The wizard is idle with no target agent chosen, the loop is running and not paused, both overlays are off, and the step counter is 0. The agents and step limit are the given ones, no skill update has been issued, and the registry is the one `create_buttons` builds. |
| Gui.FirstHuman | run_gui_advanced_fixed.py:478-479 | It gives none exactly when no agent is human. Otherwise it gives an index of a human agent with no human agent before it. |
| Gui.StartHumanActionSelection | run_gui_advanced_fixed.py:476-492 | With no human agent nothing changes. Otherwise the wizard opens at the op step with an empty buffer. A target that is already set is kept, and with none the lowest human index becomes the target. No agent, no skill update and no other GUI field changes. |
| Gui.Confirmed | run_gui_advanced_fixed.py:497-499 | A blank entry stores the default. Any other entry stores its stripped text, which is non-empty and has no whitespace at either end. |
| Gui.ParseTarget | run_gui_advanced_fixed.py:530-533 | Blank text, or text that is not an integer literal once stripped, gives -1. Text that is an integer literal once stripped gives the value `int(...)` reads from it. |
| Gui.ParseTargetPadded | run_gui_advanced_fixed.py:530-533 | Any integer's decimal text, with any whitespace around it, is read back as that integer. |
| Gui.ParseTargetLiteral | run_gui_advanced_fixed.py:530-533 | A target entry holding a signed or zero-padded literal, with whitespace around it or not, gives the number its digits spell, negated exactly under `-`: `01` and `+1` both give 1. |
| Gui.ProcessInput | run_gui_advanced_fixed.py:494-547 | With no step active nothing changes. Otherwise the buffer is emptied, and no other agent and no other GUI field changes. The op, collect and share steps store the confirmed value in one field of the target agent and move to the next step, with no skill update. The target step stores the parsed id, appends exactly one skill update carrying the agent's op, resources and that id, and leaves the wizard. The invariant is kept. |
| Gui.HandleInputEvent | run_gui_advanced_fixed.py:432-448 | No key in the wizard touches the pause, overlay, running, step or limit fields, or the target agent. ESC leaves the wizard with an empty buffer and writes no agent. ENTER confirms the step. BACKSPACE drops exactly the last character, and does nothing on an empty buffer. Any other key appends its text when that text is printable and changes nothing otherwise. |
| Gui.HandleNormalEvent | run_gui_advanced_fixed.py:416-430 | Outside the wizard, ESC clears `running`. `p`, `i` and `?` toggle their flag, `h` enters the wizard, and every other key changes nothing. Only ESC can change `running`. Agents and skill updates never change, and a target already chosen is kept. |
| Gui.HandleButtonAction | run_gui_advanced_fixed.py:457-469 | Pause, Help and Inventory toggle their flag, and Human Action enters the wizard. The nine action buttons change nothing. No button changes `running`, the agents or the skill updates, and a target already chosen is kept. |
| Gui.HandleMouseClick | run_gui_advanced_fixed.py:450-455 | A click outside every registered rectangle changes nothing. A click inside some rectangle triggers the first registered button, in order, whose rectangle holds the point. That button comes no later than any other rectangle holding the point. A target already chosen is kept. |
| Gui.ClickOnButton | run_gui_advanced_fixed.py:450-455 | With the constructed registry, a click inside a button's rectangle triggers that very button. |
| Gui.HandleEvent | run_gui_advanced_fixed.py:402-414 | A window close clears `running`. Key presses in the wizard leave the pause, overlay and running flags alone. Right clicks and other events change nothing. No event changes the step counter or sets `running` again. Only a window close, or ESC outside the wizard, clears `running`. Only ENTER in the wizard changes an agent or adds to the skill-update log, and it adds at most one entry. Once a target agent is chosen, no event changes it. |
| Gui.EventRouting | run_gui_advanced_fixed.py:407-414 | A key press goes to the wizard handler alone while the wizard is active, and to the normal-mode handler otherwise. A left click goes to the hit test in either mode. |
| Gui.HandleEvents | run_gui_advanced_fixed.py:402-414 | A frame's batch keeps the invariant, the number of agents, the step counter and the limit. It never sets `running` again. A batch without a key press or window close leaves `running` as it was. The skill-update log only grows, by at most one entry per event. Once a target agent is chosen, no batch changes it. |
| Gui.RunSimulationStep | run_gui_advanced_fixed.py:549-585 | While paused or in the wizard nothing changes. Otherwise the agents are the pipeline's next records and the counter grows by exactly one. `running` stays set exactly when it was set, the pipeline is not done, and the new counter is below the limit. Nothing else changes. |
| Gui.Frame | run_gui_advanced_fixed.py:593-596 | One pass of the loop advances the counter by at most one and never sets `running` again. |
| Gui.Run | run_gui_advanced_fixed.py:587-599 | The loop keeps the invariant, and the counter grows by at most one per frame. A loop that is not running does nothing. |
| Layout.CreateButtons | run_gui_advanced_fixed.py:117-167 | There are thirteen buttons. The first nine carry the action keys and labels in their listed order (Navigator, Share, Noop, the four moves, Do, Sleep). The last four carry Pause, Human Action, Help and Inventory, in that order. Every button is 80x30 and lies inside the 1200x800 window, right of and below the 600x600 game area. |
| Layout.ButtonGrid | run_gui_advanced_fixed.py:122-160 | Action button k sits in column k mod 3 (x = 610, 700, 790) and row k div 3 (y = 650, 685, 720). The control buttons sit in one row at y = 750, at x = 610, 700, 790 and 880. |
| Layout.ButtonKeysDistinct | run_gui_advanced_fixed.py:139-165 | The thirteen keys are distinct, so no dictionary entry overwrites another. |
| Layout.ButtonsDisjoint | run_gui_advanced_fixed.py:117-167 | No point lies in two of the thirteen button rectangles. |
| Layout.FirstHitIndex | run_gui_advanced_fixed.py:452-455 | The index found is that of the first rectangle holding the point, or the registry's length when none holds it. |
| Layout.FirstHit | run_gui_advanced_fixed.py:452-455 | It gives none exactly when no rectangle holds the point. Otherwise it gives the key of the first rectangle, in registry order, that holds the point. |
| Layout.HitIsContainingButton | run_gui_advanced_fixed.py:450-455 | A point inside one registered rectangle hits exactly that button. |
| Text.Strip | run_gui_advanced_fixed.py:497 | The result has no whitespace at either end. It is the slice of the input right after the leading whitespace, only whitespace follows it, and it is empty exactly when the input is blank. |
| Text.StripPadded | run_gui_advanced_fixed.py:497 | Stripping a trimmed text padded with whitespace on both sides gives that text back. |
| Text.StripIdempotent | run_gui_advanced_fixed.py:497 | Stripping twice is stripping once. |
| Text.ParseInt | run_gui_advanced_fixed.py:531-533 | `int(...)` succeeds exactly on an optional sign followed by ASCII digits. An unsigned literal gives a non-negative value and a `-` gives a non-positive one. The value of every accepted literal is pinned by `Text.ParseIntLiteral`. |
| Text.ParseIntLiteral | run_gui_advanced_fixed.py:531 | Every accepted literal (optional `+` or `-`, any leading zeros, then digits) reads as the number its digits spell, negated exactly under `-`: `+7` and `007` both read as 7. |
| Text.IntToStringRoundTrip | run_gui_advanced_fixed.py:531 | Every integer's decimal text parses back to it. |
| Text.NatToStringRoundTrip | run_gui_advanced_fixed.py:618 | Every natural number's decimal text reads back to it. |
| Text.Split | run_gui_advanced_fixed.py:618 | A split has at least one piece and no piece contains the separator. |
| Text.JoinSplit | run_gui_advanced_fixed.py:618 | Joining the pieces of a split with the separator restores the text. |
| Text.SplitJoin | run_gui_advanced_fixed.py:618 | Splitting a join of separator-free pieces gives back the pieces. |
| Text.SplitAppend | run_gui_advanced_fixed.py:618 | Splitting `a` + separator + `b` gives the pieces of `a` followed by those of `b`. |
| Text.SplitWithoutSeparator | run_gui_advanced_fixed.py:618 | A text without the separator splits into itself alone. |
| Cli.DigitPieces | run_gui_advanced_fixed.py:618 | The filter keeps at most one id per piece. |
| Cli.DigitPiecesAppend | run_gui_advanced_fixed.py:618 | Filtering two piece lists one after the other is filtering their concatenation. |
| Cli.ParseHumanIds | run_gui_advanced_fixed.py:616-618 | A blank value gives no ids, and there is at most one id per comma-separated piece. |
| Cli.ParseHumanIdsIsFilter | run_gui_advanced_fixed.py:616-618 | The blank test changes nothing: the ids are always the all-digit pieces of the split, in order. |
| Cli.ParseHumanIdsConcat | run_gui_advanced_fixed.py:618 | The ids of `a,b` are the ids of `a` followed by the ids of `b`. |
| Cli.ParseHumanIdsPiece | run_gui_advanced_fixed.py:618 | A single piece gives its value when it is all digits once stripped, and nothing otherwise (`-1`, `a`). |
| Cli.PieceIdNumeral | run_gui_advanced_fixed.py:618 | A number's decimal text is a piece that gives back that number. |
| Cli.DigitsOfNumerals | run_gui_advanced_fixed.py:618 | A list of decimal texts filters to the numbers they spell, in order. |
| Cli.FormatIdsRoundTrip | run_gui_advanced_fixed.py:616-618 | Every list of ids, written comma-separated, parses back to the same list. |
| Session.HandleEventsAppend | run_gui_advanced_fixed.py:402-414 | Handling two batches in turn is handling their concatenation. |
| Session.TypeText | run_gui_advanced_fixed.py:445-448 | In the wizard, typing printable text key by key, each character with the key pygame reports for it, appends exactly that text to the buffer and changes nothing else. |
| Session.TypeChar | run_gui_advanced_fixed.py:445-448 | In the wizard, a key press other than ESC, ENTER or BACKSPACE whose character is printable appends that character and changes nothing else. This includes `h`, `p`, `i` and `?`, which type rather than act. |
| Session.EntryConfirms | run_gui_advanced_fixed.py:439-448 | Typing a text into the empty buffer and pressing ENTER confirms that text. |
| Session.ConfirmOp | run_gui_advanced_fixed.py:496-505 | An op entry stores the stripped op, or `noop` when it is blank, and moves to the collect step. |
| Session.ConfirmCollect | run_gui_advanced_fixed.py:507-516 | A collect entry stores the stripped resource, or `not_applicable` when it is blank, and moves to the share step. |
| Session.ConfirmShare | run_gui_advanced_fixed.py:518-527 | A share entry stores the stripped resource, or `not_applicable` when it is blank, and moves to the target step. |
| Session.ConfirmTarget | run_gui_advanced_fixed.py:529-547 | A target entry stores the parsed id, issues one skill update with the agent's values and leaves the wizard. |
| Session.PressHStarts | run_gui_advanced_fixed.py:476-492 | With a human agent, `h` outside the wizard opens it at the op step for the agent already chosen, or for the lowest human index. |
| Session.OpenAndCollect | run_gui_advanced_fixed.py:476-516 | `h`, an op entry and a collect entry leave the wizard at the share step with both values stored on the target agent. |
| Session.ShareAndTarget | run_gui_advanced_fixed.py:518-547 | From the share step, a share entry and a target entry store both values, issue one skill update and close the wizard. |
| Session.WizardSession | run_gui_advanced_fixed.py:476-547 | A whole session (`h` and four confirmed entries) ends with the wizard idle and its target recorded. The target agent holds the four (possibly defaulted) values, no other agent changes, and exactly one skill update carrying those values is appended. |
| Session.CancelKeepsConfirmed | run_gui_advanced_fixed.py:434-438 | ESC after the op step closes the wizard with an empty buffer. The confirmed op stays written, nothing else of the agent changes, and no skill update is issued. |
| Session.EscCancels | run_gui_advanced_fixed.py:434-438 | In the wizard, ESC closes it with an empty buffer and writes nothing else. |
| Session.NoHumanNoWizard | run_gui_advanced_fixed.py:481-483 | With no human agent, neither `h` nor a click on Human Action changes anything. |
| Session.PauseClickDuringWizard | run_gui_advanced_fixed.py:412-414 | A click on Pause during the wizard toggles the pause and nothing else. |
| Session.HumanActionClickRestarts | run_gui_advanced_fixed.py:461-462 | A click on Human Action during the wizard restarts it at the op step with an empty buffer and the same target. Values confirmed earlier are kept. |
| Session.ToggleKeyTwice | run_gui_advanced_fixed.py:420-427 | Outside the wizard, pressing `p`, `i` or `?` twice restores the whole state. |
| Session.ToggleButtonTwice | run_gui_advanced_fixed.py:459-466 | The Pause, Help or Inventory button action applied twice restores the whole state. |
| Session.ResumeTicksOnce | run_gui_advanced_fixed.py:593-595 | Unpausing with `p` outside the wizard makes that same frame tick exactly once. |
| Session.RunStaysWithinLimit | run_gui_advanced_fixed.py:580-585 | A loop that starts running below its limit never counts past the limit, and whenever it is still running the counter is below the limit. |
| Session.LimitReachedTicksOnce | run_gui_advanced_fixed.py:580-595 | Take a loop that is running, not paused and outside the wizard, with its counter at or past the limit, as `--step_num=0` gives. If its first frame has no events, it still ticks once and then stops. The counter ends one above its start, and so above the limit. |
| Session.HumanIdsScenario | run_gui_advanced_fixed.py:616-618 | The `--human_agents` value `"1"` parses to `[1]`. |
| Session.NavigatorScenario | run_gui_advanced_fixed.py:476-547 | Take agents [non-human, human] with no target chosen, and enter `Navigator`, two blanks and `0`. Agent 1 ends with op `Navigator`, both resources `not_applicable` and target 0. Agent 0 is untouched, and the one skill update carries exactly those values. |

## Left out

- Rendering is not modelled: drawing, fonts, colours, hover colours,
  overlays, the progress bar with its floating-point ratio, and frame-rate
  pacing. It is presentation through a library outside the model.
- The text prompt (`input_prompt`) is not modelled, because it is display
  only.
- The simulation pipeline is not modelled. The environment, the agent
  initializer, and the action, state, context and thinking managers are
  foreign code. They become the `Simulation` parameter. The only
  assumption about them is the shape `Advance` gives by construction: one
  record per agent.
  Any concurrency inside the thinking dispatch belongs to that code.
- `update_current_skill` is foreign code on the agent object. The model
  records each call as an entry in the skill-update log, and its own effect
  on the agent is not modelled. The model assumes the call does not rewrite
  `op`, `rss_to_collect`, `rss_to_share` or `target_agent_id`. The final
  agent records stated by `Session.WizardSession` and
  `Session.NavigatorScenario` rest on that assumption.
- `handle_action` is left out because it only prints. The nine action
  buttons, and the key map's game keys, therefore change no state.
- The key map's `p` entry (`place_plant`) is unreachable, because the pause
  toggle is matched first. It is left out.
- Printing, `argparse`, `pygame.init`, `pygame.quit` and `--fps` are left out
  as process plumbing.
- Text.IsPrintable: above U+00FF it only excludes whitespace, the
  private-use areas and planes 15-16, not the full Unicode category table.
- Text.ParseInt: it accepts ASCII digits with an optional sign only.
  Python's `int` also accepts underscores between digits and other Unicode
  decimal digits.
- Text.ParseInt: it has no digit limit. Since Python 3.11 (and in the
  security releases 3.7.14, 3.8.14, 3.9.14 and 3.10.7), `int` raises
  `ValueError` on a decimal text of more than 4300 digits. At the target
  step that error is caught, so such an entry gives -1 in Python but its
  value in the model.
- Cli.ParseHumanIds: it has no digit limit either. On those Python
  versions, an all-digit piece of more than 4300 digits makes `int` raise
  an uncaught `ValueError` that ends `main`, while the model returns the
  piece's value.
- Text.IsDecimal: it accepts ASCII digits only. Python's `str.isdigit` also
  accepts other Unicode digits, such as superscripts, which `int` then
  rejects.
- Gui.Agent: an agent object with no `is_human` attribute is modelled as a
  record whose flag is false.

=== FILE: cli.dfy ===
/**
 * The command line's `--human_agents` value: a comma-separated list of agent
 * indices. Pieces that are not all digits once stripped are dropped without
 * complaint.
 */
module Cli {
  import opened Text

  /** The id one piece contributes: its value when it is all digits after stripping. */
  function PieceId(piece: string): seq<nat> {
    var p := Strip(piece);
    if IsDecimal(p) then [DigitsValue(p)] else []
  }

  /** The value of each piece that is all digits after stripping, in order. */
  function DigitPieces(pieces: seq<string>): (ids: seq<nat>)
    ensures |ids| <= |pieces|
  {
    if pieces == [] then [] else PieceId(pieces[0]) + DigitPieces(pieces[1..])
  }

  /** Filtering pieces commutes with concatenating piece lists. */
  lemma {:induction false} DigitPiecesAppend(a: seq<string>, b: seq<string>)
    ensures DigitPieces(a + b) == DigitPieces(a) + DigitPieces(b)
  {
    if a == [] {
      assert a + b == b;
    } else {
      assert (a + b)[0] == a[0];
      assert (a + b)[1..] == a[1..] + b;
      DigitPiecesAppend(a[1..], b);
    }
  }

  /**
   * The ids parsed from `--human_agents`: a blank value gives none, and
   * there is at most one id per comma-separated piece.
   */
  function ParseHumanIds(arg: string): (ids: seq<nat>)
    ensures AllSpace(arg) ==> ids == []
    ensures |ids| <= |Split(arg, ',')|
  {
    if Strip(arg) == [] then [] else DigitPieces(Split(arg, ','))
  }

  /**
   * The blank test in front of the split changes nothing: the ids are the
   * all-digit pieces of the split, whatever the text.
   */
  lemma ParseHumanIdsIsFilter(arg: string)
    ensures ParseHumanIds(arg) == DigitPieces(Split(arg, ','))
  {
    if AllSpace(arg) {
      assert ',' !in arg by {
        assert forall k | 0 <= k < |arg| :: IsSpace(arg[k]);
      }
      SplitWithoutSeparator(arg, ',');
    }
  }

  /** Parsing the text `a,b` gives the ids of `a` followed by the ids of `b`. */
  lemma ParseHumanIdsConcat(a: string, b: string)
    ensures ParseHumanIds(a + "," + b) == ParseHumanIds(a) + ParseHumanIds(b)
  {
    ParseHumanIdsIsFilter(a + "," + b);
    ParseHumanIdsIsFilter(a);
    ParseHumanIdsIsFilter(b);
    SplitAppend(a, b, ',');
    DigitPiecesAppend(Split(a, ','), Split(b, ','));
  }

  /** A single piece gives its value when it is all digits after stripping, and nothing otherwise. */
  lemma ParseHumanIdsPiece(piece: string)
    requires ',' !in piece
    ensures IsDecimal(Strip(piece)) ==> ParseHumanIds(piece) == [DigitsValue(Strip(piece))]
    ensures !IsDecimal(Strip(piece)) ==> ParseHumanIds(piece) == []
  {
    ParseHumanIdsIsFilter(piece);
    SplitWithoutSeparator(piece, ',');
  }

  /** The `--human_agents` text for a list of ids. */
  function FormatIds(ids: seq<nat>): string {
    Join(seq(|ids|, k requires 0 <= k < |ids| => NatToString(ids[k])), ',')
  }

  /** Every list of ids survives formatting and parsing unchanged. */
  lemma {:induction false} FormatIdsRoundTrip(ids: seq<nat>)
    ensures ParseHumanIds(FormatIds(ids)) == ids
  {
    var texts := seq(|ids|, k requires 0 <= k < |ids| => NatToString(ids[k]));
    ParseHumanIdsIsFilter(FormatIds(ids));
    if ids != [] {
      forall k | 0 <= k < |texts| ensures ',' !in texts[k] {
        assert IsDecimal(texts[k]);
      }
      SplitJoin(texts, ',');
      DigitsOfNumerals(ids, texts);
    }
  }

  /** A number's decimal text is one piece that gives back the number. */
  lemma PieceIdNumeral(n: nat)
    ensures PieceId(NatToString(n)) == [n]
  {
    var t := NatToString(n);
    StripPadded([], t, []);
    assert [] + t + [] == t;
    NatToStringRoundTrip(n);
  }

  lemma {:induction false} DigitsOfNumerals(ids: seq<nat>, texts: seq<string>)
    requires |texts| == |ids|
    requires forall k | 0 <= k < |ids| :: texts[k] == NatToString(ids[k])
    ensures DigitPieces(texts) == ids
  {
    if ids != [] {
      var t := texts[0];
      PieceIdNumeral(ids[0]);
      DigitsOfNumerals(ids[1..], texts[1..]);
      assert DigitPieces(texts) == PieceId(t) + DigitPieces(texts[1..]);
      assert ids == [ids[0]] + ids[1..];
    }
  }
}

=== FILE: gui.dfy ===
/**
 * The control layer of the GUI: its state record, the four-step
 * human-action wizard, event routing, and the tick gate around the external
 * simulation pipeline. Rendering is not modelled; the simulation pipeline is
 * a parameter.
 */
module Gui {
  import opened Options
  import opened Text
  import Layout

  /**
   * One agent record, as far as this layer reads and writes it. An agent
   * object without the human flag counts as not human.
   */
  datatype Agent = Agent(
    isHuman: bool,
    op: string,
    rssToCollect: string,
    rssToShare: string,
    targetAgentId: int)

  /** The wizard step; `Idle` is the program's empty `input_type`. */
  datatype InputType = Idle | OpStep | CollectStep | ShareStep | TargetStep

  /** One call of the agent's `update_current_skill`, with its arguments. */
  datatype SkillUpdate = SkillUpdate(
    agent: nat,
    op: string,
    rssToCollect: string,
    rssToShare: string,
    targetAgentId: int)

  /**
   * The GUI's own fields (the text prompt is display only and left out).
   * `buttons` is the button registry in insertion order, the order a click
   * is hit-tested in.
   */
  datatype GuiState = GuiState(
    buttons: seq<Layout.Button>,
    inputMode: bool,
    inputType: InputType,
    inputField: string,
    currentHumanAgent: Option<nat>,
    paused: bool,
    showHelp: bool,
    showInventory: bool,
    running: bool,
    currentStep: int,
    maxSteps: int)

  /** The GUI, the agents it writes to, and the skill updates it has issued, oldest first. */
  datatype World = World(gui: GuiState, agents: seq<Agent>, skillUpdates: seq<SkillUpdate>)

  /** The keys this layer tells apart; every other key is `OtherKey`. */
  datatype Key = Escape | Return | Backspace | KeyP | KeyH | KeyI | KeyQuestion | OtherKey

  /**
   * The key this model assumes a key press typing the printable character
   * `c` reports: a letter this layer binds reports its key in either case
   * (`K_h`, `K_p`, `K_i`), `?` reports `K_QUESTION` (on many layouts it is
   * `K_SLASH` with shift, which the layer does not tell apart), and every
   * other character a key the layer does not tell apart.
   */
  function KeyOf(c: char): (k: Key)
    ensures k !in {Escape, Return, Backspace}
  {
    if c == 'h' || c == 'H' then KeyH
    else if c == 'p' || c == 'P' then KeyP
    else if c == 'i' || c == 'I' then KeyI
    else if c == '?' then KeyQuestion
    else OtherKey
  }

  /** A pygame event: window close, key press, mouse press, or anything else. */
  datatype Event =
    | Quit
    | KeyDown(key: Key, unicode: string)
    | MouseDown(button: int, x: int, y: int)
    | OtherEvent

  /**
   * The external per-tick pipeline (action processing, environment step,
   * state and thinking updates): `evolve` gives each agent's record after the
   * tick and `done` the environment's done flag, both from the records and
   * the step number before the tick.
   */
  datatype Simulation = Simulation(
    evolve: (seq<Agent>, int, nat) -> Agent,
    done: (seq<Agent>, int) -> bool)

  const LeftButton := 1
  const DefaultOp := "noop"
  const NotApplicable := "not_applicable"
  const NoTarget := -1

  /**
   * What holds of every state the program reaches: the wizard is active
   * exactly when it has a step, an active wizard has a target agent and
   * some human agent exists (ticks, the only other writer of agents, are
   * held off while it is active), the
   * target indexes the agent list, and the text buffer is empty outside the
   * wizard and printable inside it.
   */
  predicate Valid(w: World) {
    && (w.gui.inputMode <==> w.gui.inputType != Idle)
    && (w.gui.inputMode ==> w.gui.currentHumanAgent.Some? && HasHuman(w.agents))
    && (w.gui.currentHumanAgent.Some? ==> w.gui.currentHumanAgent.value < |w.agents|)
    && (!w.gui.inputMode ==> w.gui.inputField == "")
    && Printable(w.gui.inputField)
  }

  /** The state the constructor sets up for agents built elsewhere. */
  function Init(agents: seq<Agent>, maxSteps: int): (w: World)
    ensures Valid(w)
    ensures !w.gui.inputMode && w.gui.running && !w.gui.paused
    ensures w.gui.currentStep == 0 && w.gui.maxSteps == maxSteps
    ensures w.agents == agents && w.skillUpdates == []
    ensures w.gui.buttons == Layout.CreateButtons()
    ensures w.gui.currentHumanAgent == None && !w.gui.showHelp && !w.gui.showInventory
  {
    World(GuiState(Layout.CreateButtons(), false, Idle, "", None, false, false, false, true, 0, maxSteps), agents, [])
  }

  predicate HasHuman(agents: seq<Agent>) {
    exists i | 0 <= i < |agents| :: agents[i].isHuman
  }

  /** The lowest index of a human agent, if there is one. */
  function FirstHuman(agents: seq<Agent>): (r: Option<nat>)
    ensures r.None? <==> !HasHuman(agents)
    ensures r.Some? ==>
      && r.value < |agents| && agents[r.value].isHuman
      && forall i | 0 <= i < r.value :: !agents[i].isHuman
  {
    if |agents| == 0 then None
    else if agents[0].isHuman then Some(0)
    else
      match FirstHuman(agents[1..])
      case None =>
        assert forall i | 1 <= i < |agents| :: agents[i] == agents[1..][i - 1];
        None
      case Some(i) =>
        assert agents[1..][i] == agents[i + 1];
        assert forall j | 1 <= j < i + 1 :: agents[j] == agents[1..][j - 1];
        Some(i + 1)
  }

  /** The agent the wizard is filling in; only meaningful while it is active. */
  function Target(w: World): nat
    requires Valid(w) && w.gui.inputMode
  {
    w.gui.currentHumanAgent.value
  }

  /**
   * Entering the wizard. With no human agent nothing changes. Otherwise a
   * target already chosen is kept, and when there is none the lowest human
   * index becomes the target; the wizard restarts at its first step with an
   * empty buffer and nothing else changes.
   */
  function StartHumanActionSelection(w: World): (r: World)
    requires Valid(w)
    ensures Valid(r)
    ensures !HasHuman(w.agents) ==> r == w
    ensures HasHuman(w.agents) ==>
      && r.gui.inputMode && r.gui.inputType == OpStep && r.gui.inputField == ""
      && r.gui.currentHumanAgent.Some?
      && (w.gui.currentHumanAgent.Some? ==> r.gui.currentHumanAgent == w.gui.currentHumanAgent)
      && (w.gui.currentHumanAgent.None? ==>
            r.gui.currentHumanAgent == FirstHuman(w.agents) && w.agents[Target(r)].isHuman)
      && r.gui == w.gui.(inputMode := true, inputType := OpStep, inputField := "",
                         currentHumanAgent := r.gui.currentHumanAgent)
      && r.agents == w.agents && r.skillUpdates == w.skillUpdates
  {
    var first := FirstHuman(w.agents);
    if first.None? then
      w
    else
      var target := if w.gui.currentHumanAgent.None? then first else w.gui.currentHumanAgent;
      w.(gui := w.gui.(currentHumanAgent := target, inputMode := true, inputType := OpStep, inputField := ""))
  }

  /** Rewriting one agent's fields other than its human flag keeps a human agent around. */
  lemma KeepsHuman(agents: seq<Agent>, i: nat, a: Agent)
    requires i < |agents| && a.isHuman == agents[i].isHuman && HasHuman(agents)
    ensures HasHuman(agents[i := a])
  {
    var j :| 0 <= j < |agents| && agents[j].isHuman;
    assert agents[i := a][j].isHuman;
  }

  /** The value a text step stores: the stripped text, or the default when the text is blank. */
  function Confirmed(text: string, default: string): (v: string)
    ensures AllSpace(text) ==> v == default
    ensures !AllSpace(text) ==> v != [] && Trimmed(v) && v == Strip(text)
  {
    var t := Strip(text);
    if t == [] then default else t
  }

  /** The target step's value: the stripped text read as an integer, or -1 when it is not one. */
  function ParseTarget(text: string): (id: int)
    ensures AllSpace(text) ==> id == NoTarget
    ensures !IsIntLiteral(Strip(text)) ==> id == NoTarget
    ensures IsIntLiteral(Strip(text)) ==> ParseInt(Strip(text)) == Some(id)
  {
    ParseInt(Strip(text)).GetOr(NoTarget)
  }

  /** A target entry holding an integer's decimal text, whitespace around it or not, gives that integer. */
  lemma ParseTargetPadded(p: string, n: int, q: string)
    requires AllSpace(p) && AllSpace(q)
    ensures ParseTarget(p + IntToString(n) + q) == n
  {
    IntToStringTrimmed(n);
    StripPadded(p, IntToString(n), q);
    IntToStringRoundTrip(n);
  }

  /**
   * Any literal the target step accepts, signed or zero-padded and with
   * whitespace around it or not, gives the number its digits spell, negated
   * exactly under `-`: `01` and `+1` both give 1.
   */
  lemma ParseTargetLiteral(p: string, sign: string, z: string, n: nat, q: string)
    requires AllSpace(p) && AllSpace(q)
    requires sign == "" || sign == "+" || sign == "-"
    requires forall i | 0 <= i < |z| :: z[i] == '0'
    ensures ParseTarget(p + (sign + z + NatToString(n)) + q) == if sign == "-" then 0 - n as int else n as int
  {
    var t := sign + z + NatToString(n);
    var digits := NatToString(n);
    assert t[|t| - 1] == digits[|digits| - 1] && IsDigit(digits[|digits| - 1]);
    assert t[0] == '+' || t[0] == '-' || t[0] == '0' || t[0] == digits[0];
    StripPadded(p, t, q);
    ParseIntLiteral(sign, z, n);
  }

  /**
   * Confirming the current wizard step. The op, collect and share steps store
   * the stripped buffer (or their default) in one field of the target agent
   * and move on; the target step stores the parsed id, issues exactly one
   * skill update with the agent's current op, resources and that id, and
   * leaves the wizard. Each confirm empties the buffer, touches no other
   * agent and no other GUI field; with no step active it does nothing.
   */
  function ProcessInput(w: World): (r: World)
    requires Valid(w)
    ensures Valid(r)
    ensures w.gui.inputType == Idle ==> r == w
    ensures w.gui.inputType != Idle ==>
      && |r.agents| == |w.agents|
      && (forall j | 0 <= j < |w.agents| && j != Target(w) :: r.agents[j] == w.agents[j])
      && r.gui == w.gui.(inputMode := r.gui.inputMode, inputType := r.gui.inputType, inputField := "")
    ensures w.gui.inputType == OpStep ==>
      && r.gui.inputMode && r.gui.inputType == CollectStep
      && r.agents[Target(w)] == w.agents[Target(w)].(op := Confirmed(w.gui.inputField, DefaultOp))
      && r.skillUpdates == w.skillUpdates
    ensures w.gui.inputType == CollectStep ==>
      && r.gui.inputMode && r.gui.inputType == ShareStep
      && r.agents[Target(w)] == w.agents[Target(w)].(rssToCollect := Confirmed(w.gui.inputField, NotApplicable))
      && r.skillUpdates == w.skillUpdates
    ensures w.gui.inputType == ShareStep ==>
      && r.gui.inputMode && r.gui.inputType == TargetStep
      && r.agents[Target(w)] == w.agents[Target(w)].(rssToShare := Confirmed(w.gui.inputField, NotApplicable))
      && r.skillUpdates == w.skillUpdates
    ensures w.gui.inputType == TargetStep ==>
      var a := w.agents[Target(w)];
      var id := ParseTarget(w.gui.inputField);
      && !r.gui.inputMode && r.gui.inputType == Idle
      && r.agents[Target(w)] == a.(targetAgentId := id)
      && r.skillUpdates == w.skillUpdates + [SkillUpdate(Target(w), a.op, a.rssToCollect, a.rssToShare, id)]
  {
    var g := w.gui;
    if g.inputType == Idle then
      w
    else
      var a := w.agents[Target(w)];
      match g.inputType
      case OpStep => Store(w, a.(op := Confirmed(g.inputField, DefaultOp)), CollectStep)
      case CollectStep => Store(w, a.(rssToCollect := Confirmed(g.inputField, NotApplicable)), ShareStep)
      case ShareStep => Store(w, a.(rssToShare := Confirmed(g.inputField, NotApplicable)), TargetStep)
      case TargetStep => Finish(w, ParseTarget(g.inputField))
  }

  /** A text step's write: the new agent record, the next step, an empty buffer. */
  function Store(w: World, a: Agent, next: InputType): (r: World)
    requires Valid(w) && w.gui.inputMode && next != Idle
    requires a.isHuman == w.agents[Target(w)].isHuman
    ensures Valid(r)
    ensures |r.agents| == |w.agents| && r.agents[Target(w)] == a
    ensures forall j | 0 <= j < |w.agents| && j != Target(w) :: r.agents[j] == w.agents[j]
    ensures r.gui == w.gui.(inputType := next, inputField := "") && r.skillUpdates == w.skillUpdates
  {
    KeepsHuman(w.agents, Target(w), a);
    w.(agents := w.agents[Target(w) := a], gui := w.gui.(inputType := next, inputField := ""))
  }

  /** The target step's write: the id, the one skill update, and leaving the wizard. */
  function Finish(w: World, id: int): (r: World)
    requires Valid(w) && w.gui.inputMode
    ensures Valid(r)
    ensures |r.agents| == |w.agents| && r.agents[Target(w)] == w.agents[Target(w)].(targetAgentId := id)
    ensures forall j | 0 <= j < |w.agents| && j != Target(w) :: r.agents[j] == w.agents[j]
    ensures r.gui == w.gui.(inputMode := false, inputType := Idle, inputField := "")
    ensures
      var a := w.agents[Target(w)];
      r.skillUpdates == w.skillUpdates + [SkillUpdate(Target(w), a.op, a.rssToCollect, a.rssToShare, id)]
  {
    var i := Target(w);
    var a := w.agents[i].(targetAgentId := id);
    World(w.gui.(inputMode := false, inputType := Idle, inputField := ""),
          w.agents[i := a],
          w.skillUpdates + [SkillUpdate(i, a.op, a.rssToCollect, a.rssToShare, id)])
  }

  /**
   * A key press while the wizard is active. ESC leaves the wizard with an
   * empty buffer and writes no agent field; ENTER confirms the step; BACKSPACE
   * drops the last buffered character (nothing on an empty buffer); any other
   * key appends its text when that text is printable and is ignored
   * otherwise.
   */
  function HandleInputEvent(w: World, key: Key, unicode: string): (r: World)
    requires Valid(w) && w.gui.inputMode
    ensures Valid(r)
    ensures r.gui.paused == w.gui.paused && r.gui.showHelp == w.gui.showHelp
    ensures r.gui.showInventory == w.gui.showInventory && r.gui.running == w.gui.running
    ensures r.gui.currentStep == w.gui.currentStep && r.gui.maxSteps == w.gui.maxSteps
    ensures r.gui.currentHumanAgent == w.gui.currentHumanAgent
    ensures key == Escape ==>
      && !r.gui.inputMode && r.gui.inputType == Idle && r.gui.inputField == ""
      && r.gui == w.gui.(inputMode := false, inputType := Idle, inputField := "")
      && r.agents == w.agents && r.skillUpdates == w.skillUpdates
    ensures key == Return ==> r == ProcessInput(w)
    ensures key == Backspace ==>
      var f := w.gui.inputField;
      && (f == [] ==> r == w)
      && (f != [] ==> r.gui.inputField + [f[|f| - 1]] == f && r == w.(gui := w.gui.(inputField := r.gui.inputField)))
    ensures key !in {Escape, Return, Backspace} ==>
      && (Printable(unicode) ==> r.gui.inputField == w.gui.inputField + unicode)
      && (!Printable(unicode) ==> r.gui.inputField == w.gui.inputField)
      && r == w.(gui := w.gui.(inputField := r.gui.inputField))
  {
    var f := w.gui.inputField;
    match key
    case Escape => w.(gui := w.gui.(inputMode := false, inputField := "", inputType := Idle))
    case Return => ProcessInput(w)
    case Backspace =>
      if f == [] then w else w.(gui := w.gui.(inputField := f[..|f| - 1]))
    case _ =>
      if Printable(unicode) then w.(gui := w.gui.(inputField := f + unicode)) else w
  }

  /**
   * A key press outside the wizard: ESC stops the main loop, `p` toggles the
   * pause, `h` enters the wizard, `i` toggles the inventory overlay and `?`
   * the help overlay. Every other key at most selects a game action, which
   * only prints, so it changes nothing.
   */
  function HandleNormalEvent(w: World, key: Key): (r: World)
    requires Valid(w)
    ensures Valid(r)
    ensures r.agents == w.agents && r.skillUpdates == w.skillUpdates
    ensures r.gui.currentStep == w.gui.currentStep && r.gui.maxSteps == w.gui.maxSteps
    ensures r.gui.running != w.gui.running ==> key == Escape && w.gui.running
    ensures w.gui.currentHumanAgent.Some? ==> r.gui.currentHumanAgent == w.gui.currentHumanAgent
    ensures key == Escape ==> r == w.(gui := w.gui.(running := false))
    ensures key == KeyP ==> r == w.(gui := w.gui.(paused := !w.gui.paused))
    ensures key == KeyH ==> r == StartHumanActionSelection(w)
    ensures key == KeyI ==> r == w.(gui := w.gui.(showInventory := !w.gui.showInventory))
    ensures key == KeyQuestion ==> r == w.(gui := w.gui.(showHelp := !w.gui.showHelp))
    ensures key in {Return, Backspace, OtherKey} ==> r == w
  {
    match key
    case Escape => w.(gui := w.gui.(running := false))
    case KeyP => w.(gui := w.gui.(paused := !w.gui.paused))
    case KeyH => StartHumanActionSelection(w)
    case KeyI => w.(gui := w.gui.(showInventory := !w.gui.showInventory))
    case KeyQuestion => w.(gui := w.gui.(showHelp := !w.gui.showHelp))
    case _ => w
  }

  /**
   * A clicked button: `pause`, `help` and `inventory` toggle their flag,
   * `human_action` enters the wizard, and the nine action buttons only print.
   */
  function HandleButtonAction(w: World, id: Layout.ButtonId): (r: World)
    requires Valid(w)
    ensures Valid(r)
    ensures r.agents == w.agents && r.skillUpdates == w.skillUpdates
    ensures r.gui.running == w.gui.running
    ensures r.gui.currentStep == w.gui.currentStep && r.gui.maxSteps == w.gui.maxSteps
    ensures w.gui.currentHumanAgent.Some? ==> r.gui.currentHumanAgent == w.gui.currentHumanAgent
    ensures id == Layout.Pause ==> r == w.(gui := w.gui.(paused := !w.gui.paused))
    ensures id == Layout.HumanAction ==> r == StartHumanActionSelection(w)
    ensures id == Layout.Help ==> r == w.(gui := w.gui.(showHelp := !w.gui.showHelp))
    ensures id == Layout.Inventory ==> r == w.(gui := w.gui.(showInventory := !w.gui.showInventory))
    ensures id !in {Layout.Pause, Layout.HumanAction, Layout.Help, Layout.Inventory} ==> r == w
  {
    match id
    case Pause => w.(gui := w.gui.(paused := !w.gui.paused))
    case HumanAction => StartHumanActionSelection(w)
    case Help => w.(gui := w.gui.(showHelp := !w.gui.showHelp))
    case Inventory => w.(gui := w.gui.(showInventory := !w.gui.showInventory))
    case _ => w
  }

  /**
   * A left click at (px, py): the registry is searched in order and the
   * first button whose rectangle holds the point acts, whatever the mode; a
   * click outside every button does nothing.
   */
  function HandleMouseClick(w: World, px: int, py: int): (r: World)
    requires Valid(w)
    ensures Valid(r)
    ensures r.agents == w.agents && r.skillUpdates == w.skillUpdates
    ensures r.gui.running == w.gui.running
    ensures r.gui.currentStep == w.gui.currentStep && r.gui.maxSteps == w.gui.maxSteps
    ensures w.gui.currentHumanAgent.Some? ==> r.gui.currentHumanAgent == w.gui.currentHumanAgent
    ensures (forall k | 0 <= k < |w.gui.buttons| :: !Layout.Contains(w.gui.buttons[k].rect, px, py)) ==> r == w
    ensures forall k | 0 <= k < |w.gui.buttons| && Layout.Contains(w.gui.buttons[k].rect, px, py) ::
      var j := Layout.FirstHitIndex(w.gui.buttons, px, py);
      j <= k && r == HandleButtonAction(w, w.gui.buttons[j].id)
  {
    match Layout.FirstHit(w.gui.buttons, px, py)
    case None => w
    case Some(id) => HandleButtonAction(w, id)
  }

  /**
   * With the registry the constructor builds, a click inside a button's
   * rectangle triggers exactly that button: the rectangles do not overlap,
   * so the search order does not matter.
   */
  lemma ClickOnButton(w: World, k: nat, px: int, py: int)
    requires Valid(w) && w.gui.buttons == Layout.CreateButtons()
    requires k < |w.gui.buttons| && Layout.Contains(w.gui.buttons[k].rect, px, py)
    ensures HandleMouseClick(w, px, py) == HandleButtonAction(w, w.gui.buttons[k].id)
  {
    Layout.HitIsContainingButton(k, px, py);
  }

  /**
   * One event. A window close clears `running`; while the wizard is active
   * every key press goes to it alone, so it leaves the pause, overlay and
   * running flags as they were; outside the wizard a key press goes to the
   * normal handler; a left click is hit-tested in either mode; anything else
   * is ignored. No event touches the step counter, only a window close or an
   * ESC outside the wizard stops the loop, and only ENTER in the wizard
   * writes an agent field or issues a skill update.
   */
  function HandleEvent(w: World, e: Event): (r: World)
    requires Valid(w)
    ensures Valid(r)
    ensures e == Quit ==> r == w.(gui := w.gui.(running := false))
    ensures e.KeyDown? && w.gui.inputMode ==>
      && r.gui.paused == w.gui.paused && r.gui.showHelp == w.gui.showHelp
      && r.gui.showInventory == w.gui.showInventory && r.gui.running == w.gui.running
    ensures (e.MouseDown? && e.button != LeftButton) || e == OtherEvent ==> r == w
    ensures r.gui.currentStep == w.gui.currentStep && r.gui.maxSteps == w.gui.maxSteps
    ensures r.gui.running ==> w.gui.running
    ensures w.gui.running && !r.gui.running ==>
      e == Quit || (e.KeyDown? && e.key == Escape && !w.gui.inputMode)
    ensures r.agents != w.agents || r.skillUpdates != w.skillUpdates ==>
      e.KeyDown? && e.key == Return && w.gui.inputMode
    ensures |w.skillUpdates| <= |r.skillUpdates| <= |w.skillUpdates| + 1
    ensures r.skillUpdates[..|w.skillUpdates|] == w.skillUpdates
    ensures w.gui.currentHumanAgent.Some? ==> r.gui.currentHumanAgent == w.gui.currentHumanAgent
  {
    match e
    case Quit => w.(gui := w.gui.(running := false))
    case KeyDown(key, unicode) =>
      if w.gui.inputMode then HandleInputEvent(w, key, unicode) else HandleNormalEvent(w, key)
    case MouseDown(button, x, y) =>
      if button == LeftButton then HandleMouseClick(w, x, y) else w
    case OtherEvent => w
  }

  /**
   * Where one event goes: a key press to the wizard while it is active and
   * to the normal handler otherwise, a left click to the hit test in either
   * mode.
   */
  lemma EventRouting(w: World, e: Event)
    requires Valid(w)
    ensures e.KeyDown? && w.gui.inputMode ==> HandleEvent(w, e) == HandleInputEvent(w, e.key, e.unicode)
    ensures e.KeyDown? && !w.gui.inputMode ==> HandleEvent(w, e) == HandleNormalEvent(w, e.key)
    ensures e.MouseDown? && e.button == LeftButton ==> HandleEvent(w, e) == HandleMouseClick(w, e.x, e.y)
  {
  }

  /**
   * One frame's batch of events, handled in arrival order. The step counter
   * stays, `running` is never set again once cleared, and the skill-update
   * log only grows.
   */
  function HandleEvents(w: World, events: seq<Event>): (r: World)
    requires Valid(w)
    ensures Valid(r)
    ensures |r.agents| == |w.agents|
    ensures r.gui.currentStep == w.gui.currentStep && r.gui.maxSteps == w.gui.maxSteps
    ensures r.gui.running ==> w.gui.running
    ensures (forall k | 0 <= k < |events| :: events[k] != Quit && !events[k].KeyDown?) ==>
      r.gui.running == w.gui.running
    ensures |w.skillUpdates| <= |r.skillUpdates| <= |w.skillUpdates| + |events|
    ensures r.skillUpdates[..|w.skillUpdates|] == w.skillUpdates
    ensures w.gui.currentHumanAgent.Some? ==> r.gui.currentHumanAgent == w.gui.currentHumanAgent
    decreases |events|
  {
    if events == [] then
      w
    else
      var w' := HandleEvent(w, events[0]);
      var r := HandleEvents(w', events[1..]);
      assert forall k | 0 <= k < |events[1..]| :: events[1..][k] == events[k + 1];
      assert r.skillUpdates[..|w.skillUpdates|] == r.skillUpdates[..|w'.skillUpdates|][..|w.skillUpdates|];
      r
  }

  /** The agent records after one tick of the external pipeline. */
  function Advance(sim: Simulation, agents: seq<Agent>, step: int): seq<Agent> {
    seq(|agents|, j requires 0 <= j < |agents| => sim.evolve(agents, step, j))
  }

  /**
   * One simulation tick. While paused or in the wizard it changes nothing.
   * Otherwise the external pipeline updates the agents, the step counter
   * grows by exactly one, and `running` is cleared exactly when the pipeline
   * reports done or the counter reaches the limit; nothing else changes.
   */
  function RunSimulationStep(w: World, sim: Simulation): (r: World)
    ensures w.gui.paused || w.gui.inputMode ==> r == w
    ensures !w.gui.paused && !w.gui.inputMode ==>
      && r.gui.currentStep == w.gui.currentStep + 1
      && (r.gui.running <==>
            w.gui.running && !sim.done(w.agents, w.gui.currentStep) && r.gui.currentStep < w.gui.maxSteps)
      && r.gui == w.gui.(currentStep := r.gui.currentStep, running := r.gui.running)
      && r.agents == Advance(sim, w.agents, w.gui.currentStep)
      && r.skillUpdates == w.skillUpdates
    ensures Valid(w) ==> Valid(r)
  {
    if w.gui.paused || w.gui.inputMode then
      w
    else
      var done := sim.done(w.agents, w.gui.currentStep);
      var agents := Advance(sim, w.agents, w.gui.currentStep);
      var step := w.gui.currentStep + 1;
      var running := if done || step >= w.gui.maxSteps then false else w.gui.running;
      World(w.gui.(currentStep := step, running := running), agents, w.skillUpdates)
  }

  /** One pass of the main loop: all pending events, then the (possibly skipped) tick. */
  function Frame(w: World, events: seq<Event>, sim: Simulation): (r: World)
    requires Valid(w)
    ensures Valid(r)
    ensures w.gui.currentStep <= r.gui.currentStep <= w.gui.currentStep + 1
    ensures r.gui.running ==> w.gui.running
  {
    RunSimulationStep(HandleEvents(w, events), sim)
  }

  /**
   * The main loop fed one event batch per frame: it stops when `running` is
   * cleared or the batches run out. Each frame ticks at most once.
   */
  function Run(w: World, frames: seq<seq<Event>>, sim: Simulation): (r: World)
    requires Valid(w)
    ensures Valid(r)
    ensures w.gui.currentStep <= r.gui.currentStep <= w.gui.currentStep + |frames|
    ensures !w.gui.running ==> r == w
    decreases |frames|
  {
    if |frames| == 0 || !w.gui.running then w else Run(Frame(w, frames[0], sim), frames[1..], sim)
  }
}

=== FILE: layout.dfy ===
/**
 * The button registry of the GUI: nine action buttons on a three-column
 * grid and four control buttons in a row, all in the sidebar to the right of
 * the 600x600 game area, and the hit test a left click goes through.
 */
module Layout {
  import opened Options

  /** The registry keys, one per button. */
  datatype ButtonId =
    | Navigator | Share | Noop
    | MoveLeft | MoveRight | MoveUp | MoveDown | Do | Sleep
    | Pause | HumanAction | Help | Inventory

  /** A screen rectangle: left edge, top edge, width, height. */
  datatype Rect = Rect(x: int, y: int, width: int, height: int)

  datatype Button = Button(id: ButtonId, caption: string, rect: Rect)

  const WindowWidth := 1200
  const WindowHeight := 800
  const GameAreaSize := 600

  const ActionLeft := 610
  const ActionTop := 650
  const ButtonWidth := 80
  const ButtonHeight := 30
  const ButtonSpacing := 10
  const RowGap := 5

  /** The action buttons' keys and labels, in registry order. */
  const ActionIds: seq<ButtonId> := [Navigator, Share, Noop, MoveLeft, MoveRight, MoveUp, MoveDown, Do, Sleep]
  const ActionCaptions: seq<string> :=
    ["Navigator", "Share", "Noop", "Move Left", "Move Right", "Move Up", "Move Down", "Do", "Sleep"]

  /** The control buttons' keys, labels and left edges, in registry order; they share one top edge. */
  const ControlIds: seq<ButtonId> := [Pause, HumanAction, Help, Inventory]
  const ControlCaptions: seq<string> := ["Pause", "Human Action", "Help", "Inventory"]
  const ControlLefts: seq<int> := [610, 700, 790, 880]
  const ControlTop := 750

  /** pygame's `Rect.collidepoint`: the rectangle is half-open on the right and bottom. */
  predicate Contains(r: Rect, px: int, py: int) {
    r.x <= px < r.x + r.width && r.y <= py < r.y + r.height
  }

  /** No point lies in both rectangles. */
  predicate Disjoint(a: Rect, b: Rect) {
    || a.x + a.width <= b.x || b.x + b.width <= a.x
    || a.y + a.height <= b.y || b.y + b.height <= a.y
  }

  /** The `i`-th action button: column `i % 3`, row `i / 3` of the grid. */
  function ActionButton(i: nat): Button
    requires i < |ActionIds|
  {
    var x := ActionLeft + (i % 3) * (ButtonWidth + ButtonSpacing);
    var y := ActionTop + (i / 3) * (ButtonHeight + RowGap);
    Button(ActionIds[i], ActionCaptions[i], Rect(x, y, ButtonWidth, ButtonHeight))
  }

  /** The `i`-th control button. */
  function ControlButton(i: nat): Button
    requires i < |ControlIds|
  {
    Button(ControlIds[i], ControlCaptions[i], Rect(ControlLefts[i], ControlTop, ButtonWidth, ButtonHeight))
  }

  /**
   * The registry, in insertion order: the nine action buttons, then the four
   * control buttons. Every button is 80x30 and lies inside the window, right
   * of and below the game area.
   */
  function CreateButtons(): (r: seq<Button>)
    ensures |r| == |ActionIds| + |ControlIds| == 13
    ensures forall k | 0 <= k < |ActionIds| :: r[k].id == ActionIds[k] && r[k].caption == ActionCaptions[k]
    ensures forall k | |ActionIds| <= k < |r| ::
      r[k].id == ControlIds[k - |ActionIds|] && r[k].caption == ControlCaptions[k - |ActionIds|]
    ensures forall k | 0 <= k < |r| ::
      && r[k].rect.width == ButtonWidth && r[k].rect.height == ButtonHeight
      && GameAreaSize <= r[k].rect.x && r[k].rect.x + r[k].rect.width <= WindowWidth
      && GameAreaSize <= r[k].rect.y && r[k].rect.y + r[k].rect.height <= WindowHeight
  {
    var r := seq(13, k requires 0 <= k < 13 => if k < |ActionIds| then ActionButton(k) else ControlButton(k - |ActionIds|));
    assert |ActionIds| == 9 && |ControlIds| == 4;
    assert forall k | |ActionIds| <= k < 13 :: r[k] == ControlButton(k - |ActionIds|);
    r
  }

  /** Each key's position in the registry's insertion order. */
  function Rank(id: ButtonId): nat {
    match id
    case Navigator => 0 case Share => 1 case Noop => 2
    case MoveLeft => 3 case MoveRight => 4 case MoveUp => 5
    case MoveDown => 6 case Do => 7 case Sleep => 8
    case Pause => 9 case HumanAction => 10 case Help => 11 case Inventory => 12
  }

  /** The thirteen registry keys are distinct: no entry of the dictionary overwrites another. */
  lemma ButtonKeysDistinct()
    ensures forall j, k | 0 <= j < k < |CreateButtons()| :: CreateButtons()[j].id != CreateButtons()[k].id
  {
    forall k | 0 <= k < |CreateButtons()| ensures Rank(CreateButtons()[k].id) == k {
      if k < |ActionIds| {
        ActionRank(k);
      } else {
        ControlRank(k - |ActionIds|);
      }
    }
  }

  lemma ActionRank(k: nat)
    requires k < |ActionIds|
    ensures Rank(ActionIds[k]) == k
  {
  }

  lemma ControlRank(k: nat)
    requires k < |ControlIds|
    ensures Rank(ControlIds[k]) == |ActionIds| + k
  {
  }

  /**
   * Where the buttons sit: the action buttons fill a grid of three columns
   * at x = 610, 700, 790 and three rows at y = 650, 685, 720, in reading
   * order; the control buttons form one row at y = 750, 10 pixels apart.
   */
  lemma ButtonGrid()
    ensures forall k | 0 <= k < |ActionIds| ::
      && CreateButtons()[k].rect.x == [610, 700, 790][k % 3]
      && CreateButtons()[k].rect.y == [650, 685, 720][k / 3]
    ensures forall k | |ActionIds| <= k < |CreateButtons()| ::
      CreateButtons()[k].rect.x == [610, 700, 790, 880][k - |ActionIds|] && CreateButtons()[k].rect.y == 750
  {
    var r := CreateButtons();
    forall k | |ActionIds| <= k < |r|
      ensures r[k].rect.x == [610, 700, 790, 880][k - |ActionIds|] && r[k].rect.y == 750
    {
      assert r[k] == ControlButton(k - |ActionIds|);
    }
  }

  /** The thirteen button rectangles are pairwise disjoint. */
  lemma ButtonsDisjoint()
    ensures forall j, k | 0 <= j < k < |CreateButtons()| ::
      Disjoint(CreateButtons()[j].rect, CreateButtons()[k].rect)
  {
    var r := CreateButtons();
    ButtonGrid();
    forall j, k | 0 <= j < k < |r| ensures Disjoint(r[j].rect, r[k].rect) {
      if k < 9 {
        // two action buttons: a different column or a different row
        assert j % 3 != k % 3 || j / 3 < k / 3;
      }
    }
  }

  /** The index of the first button whose rectangle contains the point, or `|buttons|`. */
  function FirstHitIndex(buttons: seq<Button>, px: int, py: int): (k: nat)
    ensures k <= |buttons|
    ensures forall j | 0 <= j < k :: !Contains(buttons[j].rect, px, py)
    ensures k < |buttons| ==> Contains(buttons[k].rect, px, py)
  {
    if |buttons| == 0 then 0
    else if Contains(buttons[0].rect, px, py) then 0
    else 1 + FirstHitIndex(buttons[1..], px, py)
  }

  /**
   * The button a click at (px, py) triggers: the first in registry order
   * whose rectangle contains the point, or none when no rectangle does.
   */
  function FirstHit(buttons: seq<Button>, px: int, py: int): (r: Option<ButtonId>)
    ensures r.None? <==> forall k | 0 <= k < |buttons| :: !Contains(buttons[k].rect, px, py)
    ensures r.Some? ==>
      var k := FirstHitIndex(buttons, px, py);
      k < |buttons| && buttons[k].id == r.value && Contains(buttons[k].rect, px, py)
  {
    var k := FirstHitIndex(buttons, px, py);
    if k < |buttons| then Some(buttons[k].id) else None
  }

  /**
   * Because the rectangles are disjoint, a click inside a button's rectangle
   * triggers exactly that button, wherever it sits in the registry.
   */
  lemma HitIsContainingButton(k: nat, px: int, py: int)
    requires k < |CreateButtons()| && Contains(CreateButtons()[k].rect, px, py)
    ensures FirstHit(CreateButtons(), px, py) == Some(CreateButtons()[k].id)
  {
    var r := CreateButtons();
    var j := FirstHitIndex(r, px, py);
    ButtonsDisjoint();
    assert j <= k;
    assert j < k ==> Disjoint(r[j].rect, r[k].rect);
  }
}

=== FILE: options.dfy ===
/** An optional value, used where the program keeps `None` or a value. */
module Options {

  datatype Option<+T> = None | Some(value: T) {

    /** The value held, or `default` when there is none. */
    function GetOr(default: T): T {
      match this
      case Some(v) => v
      case None => default
    }
  }
}

=== FILE: session.dfy ===
/**
 * Properties of event sequences and of the main loop: a whole wizard
 * session, cancelling part-way, clicks during the wizard, toggles, the tick
 * gate across a frame, and the bound on the step counter.
 */
module Session {
  import opened Options
  import opened Text
  import opened Gui
  import Layout
  import Cli

  const Enter := KeyDown(Return, "\r")
  const Esc := KeyDown(Escape, "\U{1B}")
  const PressH := KeyDown(KeyH, "h")
  const NavigatorOp := "Navigator"

  /** The key events pygame delivers for typing `t` one character at a time. */
  function Typing(t: string): seq<Event> {
    seq(|t|, k requires 0 <= k < |t| => KeyDown(KeyOf(t[k]), [t[k]]))
  }

  /** Typing `t`, then ENTER. */
  function Entry(t: string): seq<Event> {
    Typing(t) + [Enter]
  }

  /** Entering the wizard with `h`, then four confirmed entries. */
  function WizardEvents(op: string, collect: string, share: string, target: string): seq<Event> {
    [PressH] + Entry(op) + Entry(collect) + Entry(share) + Entry(target)
  }

  /** The agent the wizard fills in when it is entered from `w`. */
  function SessionTarget(w: World): nat
    requires Valid(w) && HasHuman(w.agents)
  {
    if w.gui.currentHumanAgent.Some? then w.gui.currentHumanAgent.value else FirstHuman(w.agents).value
  }

  /** Writing one slot twice keeps only the second write. */
  lemma UpdateTwice<T>(s: seq<T>, i: nat, x: T, y: T)
    requires i < |s|
    ensures s[i := x][i := y] == s[i := y]
  {
  }

  /** Handling two batches in turn is handling their concatenation. */
  lemma {:induction false} HandleEventsAppend(w: World, a: seq<Event>, b: seq<Event>)
    requires Valid(w)
    ensures HandleEvents(w, a + b) == HandleEvents(HandleEvents(w, a), b)
    decreases |a|
  {
    if a == [] {
      assert a + b == b;
    } else {
      assert (a + b)[0] == a[0];
      assert (a + b)[1..] == a[1..] + b;
      HandleEventsAppend(HandleEvent(w, a[0]), a[1..], b);
    }
  }

  /** A batch that leads from `w` to `r`, then one from `r` to `f`: together they lead from `w` to `f`. */
  lemma HandleEventsThen(w: World, a: seq<Event>, b: seq<Event>, r: World, f: World)
    requires Valid(w) && HandleEvents(w, a) == r && HandleEvents(r, b) == f
    ensures HandleEvents(w, a + b) == f
  {
    HandleEventsAppend(w, a, b);
  }

  /** In the wizard, typing printable text appends it to the buffer and changes nothing else. */
  lemma {:induction false} TypeText(w: World, t: string)
    requires Valid(w) && w.gui.inputMode && Printable(t)
    ensures HandleEvents(w, Typing(t)) == w.(gui := w.gui.(inputField := w.gui.inputField + t))
    decreases |t|
  {
    if t == [] {
      assert Typing(t) == [];
      assert w.gui.inputField + t == w.gui.inputField;
    } else {
      var w' := w.(gui := w.gui.(inputField := w.gui.inputField + [t[0]]));
      TypeChar(w, KeyOf(t[0]), t[0]);
      TypingTail(t);
      TypeText(w', t[1..]);
      assert w.gui.inputField + [t[0]] + t[1..] == w.gui.inputField + t;
    }
  }

  /**
   * In the wizard, a key other than ESC, ENTER and BACKSPACE whose text is
   * one printable character appends that character to the buffer, whatever
   * the key (so `h`, `p`, `i` and `?` type rather than act).
   */
  lemma TypeChar(w: World, key: Key, c: char)
    requires Valid(w) && w.gui.inputMode && IsPrintable(c) && key !in {Escape, Return, Backspace}
    ensures HandleEvent(w, KeyDown(key, [c])) == w.(gui := w.gui.(inputField := w.gui.inputField + [c]))
  {
    assert Printable([c]);
  }

  /** Typing a non-empty text is its first key followed by typing the rest. */
  lemma TypingTail(t: string)
    requires t != []
    ensures Typing(t) == [KeyDown(KeyOf(t[0]), [t[0]])] + Typing(t[1..])
  {
  }

  /** Typing `t` into the empty buffer and pressing ENTER confirms `t`. */
  lemma EntryConfirms(w: World, t: string)
    requires Valid(w) && w.gui.inputMode && w.gui.inputField == "" && Printable(t)
    ensures HandleEvents(w, Entry(t)) == ProcessInput(w.(gui := w.gui.(inputField := t)))
  {
    HandleEventsAppend(w, Typing(t), [Enter]);
    TypeText(w, t);
    assert w.gui.inputField + t == t;
  }

  /** ENTER at the op step stores the op and moves to the collect step. */
  lemma ConfirmOp(w: World, t: string)
    requires Valid(w) && w.gui.inputType == OpStep && w.gui.inputField == "" && Printable(t)
    ensures HandleEvents(w, Entry(t)) ==
      w.(gui := w.gui.(inputType := CollectStep),
         agents := w.agents[Target(w) := w.agents[Target(w)].(op := Confirmed(t, DefaultOp))])
  {
    EntryConfirms(w, t);
  }

  /** ENTER at the collect step stores the resource and moves to the share step. */
  lemma ConfirmCollect(w: World, t: string)
    requires Valid(w) && w.gui.inputType == CollectStep && w.gui.inputField == "" && Printable(t)
    ensures HandleEvents(w, Entry(t)) ==
      w.(gui := w.gui.(inputType := ShareStep),
         agents := w.agents[Target(w) := w.agents[Target(w)].(rssToCollect := Confirmed(t, NotApplicable))])
  {
    EntryConfirms(w, t);
  }

  /** ENTER at the share step stores the resource and moves to the target step. */
  lemma ConfirmShare(w: World, t: string)
    requires Valid(w) && w.gui.inputType == ShareStep && w.gui.inputField == "" && Printable(t)
    ensures HandleEvents(w, Entry(t)) ==
      w.(gui := w.gui.(inputType := TargetStep),
         agents := w.agents[Target(w) := w.agents[Target(w)].(rssToShare := Confirmed(t, NotApplicable))])
  {
    EntryConfirms(w, t);
  }

  /** ENTER at the target step stores the id, issues the skill update and leaves the wizard. */
  lemma ConfirmTarget(w: World, t: string)
    requires Valid(w) && w.gui.inputType == TargetStep && w.gui.inputField == "" && Printable(t)
    ensures
      var i := Target(w);
      var a := w.agents[i].(targetAgentId := ParseTarget(t));
      HandleEvents(w, Entry(t)) ==
        World(w.gui.(inputMode := false, inputType := Idle),
              w.agents[i := a],
              w.skillUpdates + [SkillUpdate(i, a.op, a.rssToCollect, a.rssToShare, a.targetAgentId)])
  {
    EntryConfirms(w, t);
  }

  /**
   * Outside the wizard and with a human agent, `h` enters the wizard at the
   * op step for the agent already chosen, or for the lowest human index when
   * none is.
   */
  lemma PressHStarts(w: World)
    requires Valid(w) && !w.gui.inputMode && HasHuman(w.agents)
    ensures HandleEvents(w, [PressH])
         == w.(gui := w.gui.(currentHumanAgent := Some(SessionTarget(w)), inputMode := true, inputType := OpStep))
  {
    assert [PressH][1..] == [];
    assert HandleEvent(w, PressH) == HandleNormalEvent(w, KeyH);
  }

  /** `h`, an op and a resource to collect: the wizard waits at the share step. */
  lemma OpenAndCollect(w: World, op: string, collect: string)
    requires Valid(w) && !w.gui.inputMode && HasHuman(w.agents)
    requires Printable(op) && Printable(collect)
    ensures
      var i := SessionTarget(w);
      HandleEvents(w, [PressH] + Entry(op) + Entry(collect))
        == w.(gui := w.gui.(currentHumanAgent := Some(i), inputMode := true, inputType := ShareStep),
              agents := w.agents[i := w.agents[i].(op := Confirmed(op, DefaultOp),
                                                   rssToCollect := Confirmed(collect, NotApplicable))])
  {
    var i := SessionTarget(w);
    var w1 := w.(gui := w.gui.(currentHumanAgent := Some(i), inputMode := true, inputType := OpStep));
    PressHStarts(w);
    var a1 := w.agents[i].(op := Confirmed(op, DefaultOp));
    var w2 := w1.(gui := w1.gui.(inputType := CollectStep), agents := w.agents[i := a1]);
    ConfirmOp(w1, op);
    HandleEventsThen(w, [PressH], Entry(op), w1, w2);
    var a2 := a1.(rssToCollect := Confirmed(collect, NotApplicable));
    var w3 := w2.(gui := w2.gui.(inputType := ShareStep), agents := w.agents[i := a1][i := a2]);
    ConfirmCollect(w2, collect);
    HandleEventsThen(w, [PressH] + Entry(op), Entry(collect), w2, w3);
    UpdateTwice(w.agents, i, a1, a2);
  }

  /** From the share step, a resource to share and a target id end the wizard. */
  lemma ShareAndTarget(w: World, share: string, target: string)
    requires Valid(w) && w.gui.inputType == ShareStep && w.gui.inputField == ""
    requires Printable(share) && Printable(target)
    ensures
      var i := Target(w);
      var a := w.agents[i].(rssToShare := Confirmed(share, NotApplicable), targetAgentId := ParseTarget(target));
      HandleEvents(w, Entry(share) + Entry(target))
        == World(w.gui.(inputMode := false, inputType := Idle),
                 w.agents[i := a],
                 w.skillUpdates + [SkillUpdate(i, a.op, a.rssToCollect, a.rssToShare, a.targetAgentId)])
  {
    var i := Target(w);
    var a3 := w.agents[i].(rssToShare := Confirmed(share, NotApplicable));
    var a := a3.(targetAgentId := ParseTarget(target));
    var r := w.(gui := w.gui.(inputType := TargetStep), agents := w.agents[i := a3]);
    ConfirmShare(w, share);
    var f := World(w.gui.(inputMode := false, inputType := Idle), w.agents[i := a3][i := a],
                   w.skillUpdates + [SkillUpdate(i, a.op, a.rssToCollect, a.rssToShare, a.targetAgentId)]);
    ConfirmTarget(r, target);
    HandleEventsThen(w, Entry(share), Entry(target), r, f);
    UpdateTwice(w.agents, i, a3, a);
  }

  /** The wizard's events are the first three entries followed by the last two. */
  lemma WizardEventsSplit(op: string, collect: string, share: string, target: string)
    ensures WizardEvents(op, collect, share, target)
         == ([PressH] + Entry(op) + Entry(collect)) + (Entry(share) + Entry(target))
  {
    var e3 := [PressH] + Entry(op) + Entry(collect);
    assert e3 + Entry(share) + Entry(target) == e3 + (Entry(share) + Entry(target));
  }

  /** The wizard's events lead from `w` to wherever the first three entries and then the last two lead. */
  lemma WizardThen(w: World, op: string, collect: string, share: string, target: string, r: World, f: World)
    requires Valid(w)
    requires HandleEvents(w, [PressH] + Entry(op) + Entry(collect)) == r
    requires HandleEvents(r, Entry(share) + Entry(target)) == f
    ensures HandleEvents(w, WizardEvents(op, collect, share, target)) == f
  {
    WizardEventsSplit(op, collect, share, target);
    HandleEventsThen(w, [PressH] + Entry(op) + Entry(collect), Entry(share) + Entry(target), r, f);
  }

  /**
   * A whole wizard session from outside the wizard: `h`, then four entries
   * each confirmed with ENTER. The wizard ends idle with an empty buffer, the
   * target agent holds the four (possibly defaulted) values, no other agent
   * changes, and exactly one skill update with those values is issued.
   */
  lemma WizardSession(w: World, op: string, collect: string, share: string, target: string)
    requires Valid(w) && !w.gui.inputMode && HasHuman(w.agents)
    requires Printable(op) && Printable(collect) && Printable(share) && Printable(target)
    ensures
      var i := SessionTarget(w);
      var a := w.agents[i].(op := Confirmed(op, DefaultOp),
                            rssToCollect := Confirmed(collect, NotApplicable),
                            rssToShare := Confirmed(share, NotApplicable),
                            targetAgentId := ParseTarget(target));
      HandleEvents(w, WizardEvents(op, collect, share, target))
        == World(w.gui.(currentHumanAgent := Some(i)),
                 w.agents[i := a],
                 w.skillUpdates + [SkillUpdate(i, a.op, a.rssToCollect, a.rssToShare, a.targetAgentId)])
  {
    var i := SessionTarget(w);
    var w3 := w.(gui := w.gui.(currentHumanAgent := Some(i), inputMode := true, inputType := ShareStep),
                 agents := w.agents[i := w.agents[i].(op := Confirmed(op, DefaultOp),
                                                      rssToCollect := Confirmed(collect, NotApplicable))]);
    OpenAndCollect(w, op, collect);
    ShareAndTarget(w3, share, target);
    WizardRecords(w, i, op, collect, share, target);
    var a3 := w3.agents[i].(rssToShare := Confirmed(share, NotApplicable), targetAgentId := ParseTarget(target));
    var f := World(w3.gui.(inputMode := false, inputType := Idle), w3.agents[i := a3],
                   w3.skillUpdates + [SkillUpdate(i, a3.op, a3.rssToCollect, a3.rssToShare, a3.targetAgentId)]);
    WizardThen(w, op, collect, share, target, w3, f);
  }

  /** The records the last two entries write on top of the first two give the whole session's records. */
  lemma WizardRecords(w: World, i: nat, op: string, collect: string, share: string, target: string)
    requires i < |w.agents| && !w.gui.inputMode && w.gui.inputType == Idle && w.gui.inputField == ""
    ensures
      var w3 := w.(gui := w.gui.(currentHumanAgent := Some(i), inputMode := true, inputType := ShareStep),
                   agents := w.agents[i := w.agents[i].(op := Confirmed(op, DefaultOp),
                                                        rssToCollect := Confirmed(collect, NotApplicable))]);
      var a3 := w3.agents[i].(rssToShare := Confirmed(share, NotApplicable), targetAgentId := ParseTarget(target));
      var a := w.agents[i].(op := Confirmed(op, DefaultOp),
                            rssToCollect := Confirmed(collect, NotApplicable),
                            rssToShare := Confirmed(share, NotApplicable),
                            targetAgentId := ParseTarget(target));
      World(w3.gui.(inputMode := false, inputType := Idle), w3.agents[i := a3],
            w3.skillUpdates + [SkillUpdate(i, a3.op, a3.rssToCollect, a3.rssToShare, a3.targetAgentId)])
        == World(w.gui.(currentHumanAgent := Some(i)), w.agents[i := a],
                 w.skillUpdates + [SkillUpdate(i, a.op, a.rssToCollect, a.rssToShare, a.targetAgentId)])
  {
    var a2 := w.agents[i].(op := Confirmed(op, DefaultOp), rssToCollect := Confirmed(collect, NotApplicable));
    var a := a2.(rssToShare := Confirmed(share, NotApplicable), targetAgentId := ParseTarget(target));
    UpdateTwice(w.agents, i, a2, a);
  }

  /**
   * ESC after the op step ends the wizard with an empty buffer: the op
   * confirmed before stays written, nothing else of the agent changes, and
   * no skill update is issued, whatever was typed before ESC.
   */
  lemma CancelKeepsConfirmed(w: World, op: string, typed: string)
    requires Valid(w) && !w.gui.inputMode && HasHuman(w.agents)
    requires Printable(op) && Printable(typed)
    ensures
      var r := HandleEvents(w, [PressH] + Entry(op) + Typing(typed) + [Esc]);
      var i := SessionTarget(w);
      && r.gui == w.gui.(currentHumanAgent := Some(i))
      && r.agents == w.agents[i := w.agents[i].(op := Confirmed(op, DefaultOp))]
      && r.skillUpdates == w.skillUpdates
  {
    var i := SessionTarget(w);
    var w1 := w.(gui := w.gui.(currentHumanAgent := Some(i), inputMode := true, inputType := OpStep));
    PressHStarts(w);
    var w2 := w1.(gui := w1.gui.(inputType := CollectStep),
                  agents := w.agents[i := w.agents[i].(op := Confirmed(op, DefaultOp))]);
    ConfirmOp(w1, op);
    HandleEventsThen(w, [PressH], Entry(op), w1, w2);
    var w3 := w2.(gui := w2.gui.(inputField := typed));
    TypeText(w2, typed);
    assert w2.gui.inputField + typed == typed;
    HandleEventsThen(w, [PressH] + Entry(op), Typing(typed), w2, w3);
    EscCancels(w3);
    HandleEventsThen(w, [PressH] + Entry(op) + Typing(typed), [Esc], w3,
                     w3.(gui := w3.gui.(inputMode := false, inputType := Idle, inputField := "")));
  }

  /** In the wizard, ESC leaves it with an empty buffer and writes nothing else. */
  lemma EscCancels(w: World)
    requires Valid(w) && w.gui.inputMode
    ensures HandleEvents(w, [Esc]) == w.(gui := w.gui.(inputMode := false, inputType := Idle, inputField := ""))
  {
    assert [Esc][1..] == [];
  }

  /** With no human agent, `h` and the Human Action button change nothing. */
  lemma NoHumanNoWizard(w: World, px: int, py: int)
    requires Valid(w) && !HasHuman(w.agents) && w.gui.buttons == Layout.CreateButtons()
    requires Layout.Contains(Layout.CreateButtons()[10].rect, px, py)
    ensures HandleEvents(w, [PressH]) == w
    ensures HandleEvents(w, [MouseDown(LeftButton, px, py)]) == w
  {
    ClickOnButton(w, 10, px, py);
    assert Layout.CreateButtons()[10].id == Layout.HumanAction;
  }

  /**
   * A click on Pause while the wizard is active still toggles the pause and
   * leaves the wizard, its buffer and the agents as they were.
   */
  lemma PauseClickDuringWizard(w: World, px: int, py: int)
    requires Valid(w) && w.gui.inputMode && w.gui.buttons == Layout.CreateButtons()
    requires Layout.Contains(Layout.CreateButtons()[9].rect, px, py)
    ensures HandleEvent(w, MouseDown(LeftButton, px, py)) == w.(gui := w.gui.(paused := !w.gui.paused))
  {
    ClickOnButton(w, 9, px, py);
    assert Layout.CreateButtons()[9].id == Layout.Pause;
  }

  /**
   * A click on Human Action while the wizard is active restarts it at the op
   * step with an empty buffer and the same target agent; fields confirmed
   * earlier keep their values.
   */
  lemma HumanActionClickRestarts(w: World, px: int, py: int)
    requires Valid(w) && w.gui.inputMode && w.gui.buttons == Layout.CreateButtons()
    requires Layout.Contains(Layout.CreateButtons()[10].rect, px, py)
    ensures
      var r := HandleEvent(w, MouseDown(LeftButton, px, py));
      && r.gui == w.gui.(inputType := OpStep, inputField := "")
      && r.agents == w.agents && r.skillUpdates == w.skillUpdates
  {
    ClickOnButton(w, 10, px, py);
    assert Layout.CreateButtons()[10].id == Layout.HumanAction;
    assert w.agents[Target(w)] in w.agents;
  }

  /** Outside the wizard, pressing `p`, `i` or `?` twice restores the state. */
  lemma ToggleKeyTwice(w: World, key: Key, unicode: string)
    requires Valid(w) && !w.gui.inputMode && key in {KeyP, KeyI, KeyQuestion}
    ensures HandleEvents(w, [KeyDown(key, unicode), KeyDown(key, unicode)]) == w
  {
    var w1 := HandleEvent(w, KeyDown(key, unicode));
    assert [KeyDown(key, unicode), KeyDown(key, unicode)][1..] == [KeyDown(key, unicode)];
    assert HandleEvents(w1, [KeyDown(key, unicode)]) == HandleEvent(w1, KeyDown(key, unicode));
  }

  /** The Pause, Help or Inventory button action applied twice restores the state. */
  lemma ToggleButtonTwice(w: World, id: Layout.ButtonId)
    requires Valid(w) && id in {Layout.Pause, Layout.Help, Layout.Inventory}
    ensures HandleButtonAction(HandleButtonAction(w, id), id) == w
  {
  }

  /** Unpausing with `p` outside the wizard makes that very frame tick exactly once. */
  lemma ResumeTicksOnce(w: World, sim: Simulation)
    requires Valid(w) && w.gui.paused && !w.gui.inputMode
    ensures
      var r := Frame(w, [KeyDown(KeyP, "p")], sim);
      !r.gui.paused && r.gui.currentStep == w.gui.currentStep + 1
  {
    assert HandleEvents(w, [KeyDown(KeyP, "p")]) == HandleEvent(w, KeyDown(KeyP, "p"));
  }

  /**
   * A loop that is running below its limit never counts past the limit:
   * `running` is cleared by the tick that reaches it, and the loop stops.
   */
  lemma {:induction false} RunStaysWithinLimit(w: World, frames: seq<seq<Event>>, sim: Simulation)
    requires Valid(w)
    requires w.gui.running ==> w.gui.currentStep < w.gui.maxSteps
    ensures
      var r := Run(w, frames, sim);
      && (r.gui.running ==> r.gui.currentStep < r.gui.maxSteps)
      && r.gui.currentStep <= (if w.gui.running then w.gui.maxSteps else w.gui.currentStep)
    decreases |frames|
  {
    if |frames| > 0 && w.gui.running {
      var w' := Frame(w, frames[0], sim);
      var h := HandleEvents(w, frames[0]);
      assert w'.gui.maxSteps == w.gui.maxSteps;
      assert w'.gui.running ==> w'.gui.currentStep < w'.gui.maxSteps by {
        if !h.gui.paused && !h.gui.inputMode {
          assert w'.gui.running ==> w'.gui.currentStep < h.gui.maxSteps;
        }
      }
      RunStaysWithinLimit(w', frames[1..], sim);
    }
  }

  /**
   * A running loop that starts at or past its limit (as `--step_num=0`
   * gives) still ticks once before it stops: the counter ends one past its
   * start, and so above the limit.
   */
  lemma LimitReachedTicksOnce(w: World, frames: seq<seq<Event>>, sim: Simulation)
    requires Valid(w) && w.gui.running && !w.gui.paused && !w.gui.inputMode
    requires w.gui.maxSteps <= w.gui.currentStep
    requires |frames| >= 1 && frames[0] == []
    ensures
      var r := Run(w, frames, sim);
      && !r.gui.running
      && r.gui.currentStep == w.gui.currentStep + 1 > w.gui.maxSteps
  {
    var w' := Frame(w, [], sim);
    assert HandleEvents(w, []) == w;
    assert !w'.gui.running && w'.gui.currentStep == w.gui.currentStep + 1;
    assert Run(w, frames, sim) == Run(w', frames[1..], sim);
  }

  /** The `--human_agents` value `"1"` parses to the single id 1. */
  lemma HumanIdsScenario()
    ensures Cli.ParseHumanIds("1") == [1]
  {
    assert Cli.PieceId("1") == [1] by {
      assert NatToString(1) == "1";
      Cli.PieceIdNumeral(1);
    }
    assert Cli.ParseHumanIds("1") == Cli.DigitPieces(["1"]) by {
      Cli.ParseHumanIdsIsFilter("1");
      SplitWithoutSeparator("1", ',');
    }
    assert Cli.DigitPieces(["1"]) == Cli.PieceId("1") + Cli.DigitPieces([]);
  }

  /** A text with no whitespace at either end strips to itself. */
  lemma StripTrimmed(s: string)
    requires Trimmed(s)
    ensures Strip(s) == s
  {
    StripPadded([], s, []);
    assert [] + s + [] == s;
  }

  /** Text made of printable ASCII characters (space to `~`) is printable. */
  lemma PrintableAscii(s: string)
    requires forall i | 0 <= i < |s| :: ' ' <= s[i] <= '~'
    ensures Printable(s)
  {
  }

  /** A non-blank entry without surrounding whitespace is stored exactly as typed. */
  lemma ConfirmedTrimmed(t: string, default: string)
    requires t != [] && Trimmed(t)
    ensures Confirmed(t, default) == t
  {
    StripTrimmed(t);
  }

  /** A target entry without surrounding whitespace is read as an integer literal as it stands. */
  lemma ParseTargetTrimmed(t: string)
    requires Trimmed(t)
    ensures ParseTarget(t) == ParseInt(t).GetOr(NoTarget)
  {
    StripTrimmed(t);
  }

  /** The scenario's entries are printable, and confirming them gives `Navigator`, the defaults and `0`. */
  lemma NavigatorEntries()
    ensures Printable(NavigatorOp) && Printable("") && Printable("0")
    ensures Confirmed(NavigatorOp, DefaultOp) == NavigatorOp
    ensures Confirmed("", NotApplicable) == NotApplicable
    ensures ParseTarget("0") == 0
  {
    PrintableAscii(NavigatorOp);
    PrintableAscii("0");
    ConfirmedTrimmed(NavigatorOp, DefaultOp);
    ParseTargetTrimmed("0");
    assert IsDecimal("0");
  }

  /** The agent record the scenario's four entries produce. */
  lemma NavigatorAgent(a: Agent)
    ensures a.(op := Confirmed(NavigatorOp, DefaultOp),
               rssToCollect := Confirmed("", NotApplicable),
               rssToShare := Confirmed("", NotApplicable),
               targetAgentId := ParseTarget("0"))
         == a.(op := NavigatorOp, rssToCollect := NotApplicable, rssToShare := NotApplicable, targetAgentId := 0)
  {
    NavigatorEntries();
  }

  /**
   * The end-to-end scenario: agent 1 of two is human, no target is chosen
   * yet and no skill update has been issued (as in the state the constructor
   * builds), and the operator enters `Navigator`, two blanks and `0`. Agent 1
   * then holds exactly those values, with the blanks defaulted, agent 0 is
   * untouched, the wizard is closed with agent 1 as its target, and one skill
   * update carries the values.
   */
  lemma NavigatorScenario(w: World, a0: Agent, a1: Agent)
    requires Valid(w) && !w.gui.inputMode && w.gui.currentHumanAgent.None?
    requires w.agents == [a0, a1] && !a0.isHuman && a1.isHuman && w.skillUpdates == []
    ensures
      var a := a1.(op := NavigatorOp, rssToCollect := NotApplicable, rssToShare := NotApplicable, targetAgentId := 0);
      HandleEvents(w, WizardEvents(NavigatorOp, "", "", "0"))
        == World(w.gui.(currentHumanAgent := Some(1)),
                 [a0, a],
                 [SkillUpdate(1, NavigatorOp, NotApplicable, NotApplicable, 0)])
  {
    NavigatorTarget(w, a0, a1);
    NavigatorResult(w, a0, a1);
    WizardSession(w, NavigatorOp, "", "", "0");
  }

  /** With agent 0 not human and agent 1 human, the wizard is opened for agent 1. */
  lemma NavigatorTarget(w: World, a0: Agent, a1: Agent)
    requires Valid(w) && !w.gui.inputMode && w.gui.currentHumanAgent.None?
    requires w.agents == [a0, a1] && !a0.isHuman && a1.isHuman
    ensures HasHuman(w.agents) && SessionTarget(w) == 1
  {
    assert w.agents[1].isHuman;
    assert FirstHuman(w.agents) == Some(1);
  }

  /** The world `WizardSession` describes for the scenario's entries, written out. */
  lemma NavigatorResult(w: World, a0: Agent, a1: Agent)
    requires w.agents == [a0, a1] && w.skillUpdates == []
    ensures Printable(NavigatorOp) && Printable("") && Printable("0")
    ensures
      var a := w.agents[1].(op := Confirmed(NavigatorOp, DefaultOp),
                            rssToCollect := Confirmed("", NotApplicable),
                            rssToShare := Confirmed("", NotApplicable),
                            targetAgentId := ParseTarget("0"));
      World(w.gui.(currentHumanAgent := Some(1)),
            w.agents[1 := a],
            w.skillUpdates + [SkillUpdate(1, a.op, a.rssToCollect, a.rssToShare, a.targetAgentId)])
        == World(w.gui.(currentHumanAgent := Some(1)),
                 [a0, a1.(op := NavigatorOp, rssToCollect := NotApplicable, rssToShare := NotApplicable, targetAgentId := 0)],
                 [SkillUpdate(1, NavigatorOp, NotApplicable, NotApplicable, 0)])
  {
    NavigatorEntries();
    var a := a1.(op := NavigatorOp, rssToCollect := NotApplicable, rssToShare := NotApplicable, targetAgentId := 0);
    NavigatorAgent(a1);
    assert w.agents[1 := a] == [a0, a];
    assert w.skillUpdates + [SkillUpdate(1, NavigatorOp, NotApplicable, NotApplicable, 0)]
        == [SkillUpdate(1, NavigatorOp, NotApplicable, NotApplicable, 0)];
  }
}

=== FILE: text.dfy ===
/**
 * The handful of Python string built-ins the GUI relies on: `str.isspace`,
 * `str.isprintable`, `str.strip`, `str.isdigit`, `int(...)` on a string and
 * `str.split(sep)`.
 *
 * Character classes are exact for ASCII and Latin-1. Above U+00FF,
 * `IsSpace` lists every character Python treats as whitespace, while
 * `IsPrintable` only excludes whitespace and the private-use areas: the full
 * Unicode category table is not part of this model. Digits and integer
 * literals are ASCII only (no underscores, no other Unicode digits).
 */
module Text {
  import opened Options

  /** Python's `str.isspace` for one character. */
  predicate IsSpace(c: char) {
    var n := c as int;
    || 9 <= n <= 13
    || 28 <= n <= 32
    || n == 0x85 || n == 0xA0 || n == 0x1680
    || 0x2000 <= n <= 0x200A
    || n == 0x2028 || n == 0x2029 || n == 0x202F || n == 0x205F || n == 0x3000
  }

  /** Python's `str.isprintable` for one character (see the module comment). */
  predicate IsPrintable(c: char) {
    var n := c as int;
    if n < 0x100 then
      (0x20 <= n <= 0x7E) || (0xA1 <= n && n != 0xAD)
    else
      !IsSpace(c) && !(0xE000 <= n <= 0xF8FF) && n < 0xF_0000
  }

  predicate AllSpace(s: string) {
    forall i | 0 <= i < |s| :: IsSpace(s[i])
  }

  /** Python's `str.isprintable`: true of the empty string. */
  predicate Printable(s: string) {
    forall i | 0 <= i < |s| :: IsPrintable(s[i])
  }

  /** No whitespace at either end (vacuously true of the empty string). */
  predicate Trimmed(s: string) {
    s == [] || (!IsSpace(s[0]) && !IsSpace(s[|s| - 1]))
  }

  /** The length of the longest all-whitespace prefix of `s`. */
  function LeadingSpaces(s: string): (k: nat)
    ensures k <= |s|
    ensures AllSpace(s[..k])
    ensures k < |s| ==> !IsSpace(s[k])
  {
    if |s| > 0 && IsSpace(s[0]) then
      var k' := LeadingSpaces(s[1..]);
      assert forall i | 1 <= i < 1 + k' :: s[i] == s[1..][..k'][i - 1];
      1 + k'
    else
      0
  }

  /** The length of the longest all-whitespace suffix of `s`. */
  function TrailingSpaces(s: string): (k: nat)
    ensures k <= |s|
    ensures AllSpace(s[|s| - k..])
    ensures k < |s| ==> !IsSpace(s[|s| - k - 1])
  {
    if |s| > 0 && IsSpace(s[|s| - 1]) then
      var t := s[..|s| - 1];
      var k' := TrailingSpaces(t);
      assert forall i | |s| - 1 - k' <= i < |s| - 1 :: s[i] == t[|t| - k'..][i - (|s| - 1 - k')];
      1 + k'
    else
      0
  }

  /**
   * Python's `str.strip()`: `s` without its whitespace prefix and suffix.
   * The result sits in `s` right after the longest whitespace prefix, only
   * whitespace follows it, and it is empty exactly when `s` is blank.
   */
  function Strip(s: string): (r: string)
    ensures Trimmed(r)
    ensures LeadingSpaces(s) + |r| <= |s|
    ensures r == s[LeadingSpaces(s)..LeadingSpaces(s) + |r|]
    ensures AllSpace(s[LeadingSpaces(s) + |r|..])
    ensures r == [] <==> AllSpace(s)
  {
    var i := LeadingSpaces(s);
    var t := s[i..];
    var r := t[..|t| - TrailingSpaces(t)];
    StripFacts(s, i, t, r);
    r
  }

  lemma StripFacts(s: string, i: nat, t: string, r: string)
    requires i == LeadingSpaces(s) && t == s[i..] && r == t[..|t| - TrailingSpaces(t)]
    ensures Trimmed(r)
    ensures i + |r| <= |s| && r == s[i..i + |r|]
    ensures AllSpace(s[i + |r|..])
    ensures r == [] <==> AllSpace(s)
  {
    StripSlice(s, i, t, r);
    StripBlank(s, i, t, r);
    if r != [] {
      assert r[0] == s[i];
    }
  }

  lemma StripSlice(s: string, i: nat, t: string, r: string)
    requires i == LeadingSpaces(s) && t == s[i..] && r == t[..|t| - TrailingSpaces(t)]
    ensures i + |r| <= |s| && r == s[i..i + |r|]
    ensures AllSpace(s[i + |r|..])
  {
    assert s[i + |r|..] == t[|t| - TrailingSpaces(t)..];
  }

  lemma StripBlank(s: string, i: nat, t: string, r: string)
    requires i == LeadingSpaces(s) && t == s[i..] && r == t[..|t| - TrailingSpaces(t)]
    ensures r == [] <==> AllSpace(s)
  {
    if r == [] {
      assert t[|t| - TrailingSpaces(t)..] == t;
      assert s == s[..i] + t;
    }
  }

  /** The whitespace prefix of a padded text is the padding, when the text starts with no space. */
  lemma LeadingSpacesPadded(p: string, m: string)
    requires AllSpace(p) && m != [] && !IsSpace(m[0])
    ensures LeadingSpaces(p + m) == |p|
  {
    var s := p + m;
    var k := LeadingSpaces(s);
    assert s[|p|] == m[0];
    assert AllSpace(s[..k]);
  }

  /** The only trimmed prefix of `m + q` followed by whitespace alone is `m`. */
  lemma TrimmedPrefix(m: string, q: string, r: string)
    requires Trimmed(m) && m != [] && AllSpace(q)
    requires |r| <= |m + q| && r == (m + q)[..|r|] && r != [] && Trimmed(r)
    requires AllSpace((m + q)[|r|..])
    ensures r == m
  {
    var s := m + q;
    assert s[|m| - 1] == m[|m| - 1];
  }

  /** Stripping removes exactly the whitespace padded around a trimmed text. */
  lemma {:induction false} StripPadded(p: string, m: string, q: string)
    requires AllSpace(p) && AllSpace(q) && Trimmed(m)
    ensures Strip(p + m + q) == m
  {
    var s := p + m + q;
    if m == [] {
      assert s == p + q;
      forall j | 0 <= j < |s| ensures IsSpace(s[j]) {
        assert s[j] == if j < |p| then p[j] else q[j - |p|];
      }
    } else {
      assert s == p + (m + q);
      LeadingSpacesPadded(p, m + q);
      assert s[|p|..] == m + q;
      assert !AllSpace(s) by { assert s[|p|] == m[0]; }
      var r := Strip(s);
      assert r == (m + q)[..|r|];
      assert s[|p| + |r|..] == (m + q)[|r|..];
      TrimmedPrefix(m, q, r);
    }
  }

  /** Stripping twice is stripping once. */
  lemma StripIdempotent(s: string)
    ensures Strip(Strip(s)) == Strip(s)
  {
    StripPadded([], Strip(s), []);
    assert [] + Strip(s) + [] == Strip(s);
  }

  predicate IsDigit(c: char) {
    '0' <= c <= '9'
  }

  /** Python's `str.isdigit`, ASCII digits only: non-empty and all digits. */
  predicate IsDecimal(s: string) {
    |s| > 0 && forall i | 0 <= i < |s| :: IsDigit(s[i])
  }

  function DigitValue(c: char): nat
    requires IsDigit(c)
  {
    (c as int) - ('0' as int)
  }

  function DigitChar(d: nat): char
    requires d < 10
  {
    (('0' as int) + d) as char
  }

  /** The value of a string of decimal digits, most significant first. */
  function DigitsValue(s: string): nat
    requires forall i | 0 <= i < |s| :: IsDigit(s[i])
  {
    if |s| == 0 then 0 else 10 * DigitsValue(s[..|s| - 1]) + DigitValue(s[|s| - 1])
  }

  /** Python's `str(n)` for a natural number. */
  function NatToString(n: nat): (s: string)
    ensures IsDecimal(s)
  {
    if n < 10 then [DigitChar(n)] else NatToString(n / 10) + [DigitChar(n % 10)]
  }

  /** Reading back the decimal text of `n` gives `n`. */
  lemma {:induction false} NatToStringRoundTrip(n: nat)
    ensures DigitsValue(NatToString(n)) == n
  {
    var s := NatToString(n);
    if n >= 10 {
      NatToStringRoundTrip(n / 10);
      assert s[..|s| - 1] == NatToString(n / 10);
    }
  }

  /** Python's `str(n)` for any integer. */
  function IntToString(n: int): string {
    if n < 0 then "-" + NatToString(-n) else NatToString(n)
  }

  /** The texts `ParseInt` accepts: an optional sign, then decimal digits. */
  predicate IsIntLiteral(s: string) {
    || IsDecimal(s)
    || (|s| >= 2 && (s[0] == '+' || s[0] == '-') && IsDecimal(s[1..]))
  }

  /**
   * Python's `int(s)` on an already stripped text; `None` stands for the
   * `ValueError` it raises. A leading `-` negates, a leading `+` does not,
   * and leading zeros are allowed.
   */
  function ParseInt(s: string): (r: Option<int>)
    ensures r.Some? <==> IsIntLiteral(s)
    ensures r.Some? && IsDecimal(s) ==> r.value >= 0
    ensures r.Some? && s[0] == '-' ==> r.value <= 0
  {
    if IsDecimal(s) then Some(DigitsValue(s))
    else if |s| >= 2 && s[0] == '+' && IsDecimal(s[1..]) then Some(DigitsValue(s[1..]))
    else if |s| >= 2 && s[0] == '-' && IsDecimal(s[1..]) then Some(0 - DigitsValue(s[1..]) as int)
    else None
  }

  /** Every integer's decimal text parses back to that integer. */
  lemma IntToStringRoundTrip(n: int)
    ensures ParseInt(IntToString(n)) == Some(n)
  {
    if n < 0 {
      var s := IntToString(n);
      assert s[1..] == NatToString(-n);
      NatToStringRoundTrip(-n);
    } else {
      NatToStringRoundTrip(n);
    }
  }

  /** A run of zeros reads as 0. */
  lemma {:induction false} ZerosValue(z: string)
    requires forall i | 0 <= i < |z| :: z[i] == '0'
    ensures DigitsValue(z) == 0
  {
    if |z| > 0 {
      ZerosValue(z[..|z| - 1]);
    }
  }

  /** Leading zeros do not change the value of a digit string. */
  lemma {:induction false} LeadingZeros(z: string, t: string)
    requires forall i | 0 <= i < |z| :: z[i] == '0'
    requires forall i | 0 <= i < |t| :: IsDigit(t[i])
    ensures DigitsValue(z + t) == DigitsValue(t)
  {
    if |t| == 0 {
      assert z + t == z;
      ZerosValue(z);
    } else {
      LeadingZeros(z, t[..|t| - 1]);
      assert (z + t)[..|z + t| - 1] == z + t[..|t| - 1];
    }
  }

  /**
   * Every literal `ParseInt` accepts, in the shape sign, zeros, canonical
   * digits: the value is the digits' number, negated exactly under `-`.
   */
  lemma ParseIntLiteral(sign: string, z: string, n: nat)
    requires sign == "" || sign == "+" || sign == "-"
    requires forall i | 0 <= i < |z| :: z[i] == '0'
    ensures ParseInt(sign + z + NatToString(n)) == Some(if sign == "-" then 0 - n as int else n as int)
  {
    var d := z + NatToString(n);
    var s := sign + z + NatToString(n);
    assert s == sign + d;
    assert IsDecimal(d);
    LeadingZeros(z, NatToString(n));
    NatToStringRoundTrip(n);
    if sign == "" {
      assert s == d;
    } else {
      assert s[1..] == d && !IsDigit(s[0]) && !IsDecimal(s);
    }
  }

  /** An integer's decimal text is non-empty and has no whitespace at either end. */
  lemma IntToStringTrimmed(n: int)
    ensures IntToString(n) != [] && Trimmed(IntToString(n))
  {
    var s := IntToString(n);
    assert IsDigit(s[|s| - 1]);
  }

  /** Python's `s.split(sep)`: the pieces between occurrences of `sep`. */
  function Split(s: string, sep: char): (r: seq<string>)
    ensures |r| >= 1
    ensures forall k | 0 <= k < |r| :: sep !in r[k]
  {
    if s == [] then
      [[]]
    else
      var rest := Split(s[1..], sep);
      if s[0] == sep then [[]] + rest else [[s[0]] + rest[0]] + rest[1..]
  }

  /** Python's `sep.join(pieces)`. */
  function Join(pieces: seq<string>, sep: char): string {
    if |pieces| == 0 then []
    else if |pieces| == 1 then pieces[0]
    else pieces[0] + [sep] + Join(pieces[1..], sep)
  }

  /** Joining the pieces of a split restores the text. */
  lemma {:induction false} JoinSplit(s: string, sep: char)
    ensures Join(Split(s, sep), sep) == s
  {
    if s != [] {
      var rest := Split(s[1..], sep);
      JoinSplit(s[1..], sep);
      if s[0] == sep {
        assert Split(s, sep)[1..] == rest;
      } else {
        var r := Split(s, sep);
        if |rest| == 1 {
          assert r == [[s[0]] + rest[0]];
        } else {
          assert r[1..] == rest[1..];
          assert Join(rest, sep) == rest[0] + [sep] + Join(rest[1..], sep);
        }
      }
    }
  }

  /** A text without `sep` splits into itself alone. */
  lemma {:induction false} SplitWithoutSeparator(s: string, sep: char)
    requires sep !in s
    ensures Split(s, sep) == [s]
  {
    if s != [] {
      SplitWithoutSeparator(s[1..], sep);
      assert [s[0]] + s[1..] == s;
    }
  }

  /** Splitting distributes over a separator: the pieces of each side, in order. */
  lemma {:induction false} SplitAppend(a: string, b: string, sep: char)
    ensures Split(a + [sep] + b, sep) == Split(a, sep) + Split(b, sep)
  {
    var s := a + [sep] + b;
    if a == [] {
      assert s[0] == sep && s[1..] == b;
    } else {
      assert s[0] == a[0];
      assert s[1..] == a[1..] + [sep] + b;
      SplitAppend(a[1..], b, sep);
    }
  }

  /** Splitting what `Join` built gives back the pieces, when none holds `sep`. */
  lemma {:induction false} SplitJoin(pieces: seq<string>, sep: char)
    requires |pieces| >= 1
    requires forall k | 0 <= k < |pieces| :: sep !in pieces[k]
    ensures Split(Join(pieces, sep), sep) == pieces
  {
    SplitWithoutSeparator(pieces[0], sep);
    if |pieces| > 1 {
      SplitJoin(pieces[1..], sep);
      SplitAppend(pieces[0], Join(pieces[1..], sep), sep);
      assert [pieces[0]] + pieces[1..] == pieces;
    }
  }
}
